=== FILE: README.md ===
# pluribus-ansible: trunk, VLAG and eBGP command building, in Dafny

This project models the part of the Pluribus Networks Ansible modules that
turns module parameters into Netvisor `/usr/bin/cli` command lines and turns
the tool's output into the module's JSON result:

- `pn_trunk` (`trunk-create`, `trunk-delete`, `trunk-modify`). The model covers
  Ansible's `required`, `choices` and `required_if` checks, the command string
  as the module concatenates it (reported as `command`), the argument vector
  the field table gives, and the `stdout`/`stderr`/`changed` report.
- `pn_vlag` (`vlag-create`, `vlag-delete`, `vlag-modify`). It has the same
  shape as `pn_trunk`, with another field table and an `rc` in the report.
  Two of its options (`peer-switch<value>` and `failover-<value>-L2`) are
  concatenated into a single token.
- The pure helpers of `pn_ebgp_configuration`. These are:
  - the `pn_cli` prefix;
  - the three outcomes of `run_cli` (the output, `Success`, or a failure
    report that ends the module);
  - the loop over the CSV rows of `pn_bgp_data`;
  - the neighbour address with its prefix length cut off;
  - the `auto-trunk`/`no-auto-trunk` setting;
  - the decision whether to create the switch's vrouter;
  - the module's `changed` flag, computed from the list of recorded changes.

Modules:

| module | file | contents |
|---|---|---|
| `Wrappers` | `wrappers.dfy` | `Option`, `Result` and the `Pass`/`Fail` outcome |
| `PyText` | `text.dfy` | Python 2 `str` (byte string) operations used by the modules: whitespace `split()` and `shlex.split` on plain words (`Words`), `strip`/`rstrip`, `split(sep)`/`join`, `replace(' ', '')`, ASCII `lower()` |
| `CliArgs` | `cliargs.dfy` | Python truthiness, tri-state booleans, a field table rendered clause by clause in declaration order (`Collect`), the login prefix, Ansible's `required_if` check, and the trailing-newline trim of the report |
| `Trunk` | `trunk.dfy` | `pn_trunk` |
| `Vlag` | `vlag.dfy` | `pn_vlag` |
| `Ebgp` | `ebgp.dfy` | the `pn_ebgp_configuration` helpers |

Each builder produces two things from one request:
- the raw string, piece by piece as the source appends it;
- the argument vector, built from the field table.

The tool is handed `Argv(text)`, whitespace splitting of the raw string,
which is what `shlex.split` does to a string without quotes or backslashes.

For trunk and VLAG, `TextSplitsToArgv` proves that splitting the raw string
on shell whitespace yields exactly the table vector, provided every value is
a plain shell word (non-empty, with no whitespace, quote or backslash). A
value such as `a b` is split into two tokens by the module; the table vector
keeps it as one, and the theorem does not apply to it. The rest of the
contracts concern the table vector:
- where the credentials, switch, command and name go;
- that every option appears exactly when it is set, with its value;
- the fixed emission order.

Running the tool is a parameter (`tool: seq<string> -> ToolOutput`). Each
report is stated in terms of the output that parameter returns. For trunk
and VLAG that output is the pair of streams as `communicate()` delivers it:
both modules open the pipe with `universal_newlines=True`, so any `\r\n` or
`\r` the switch wrote already arrives as `\n`, and `TrimEol`'s handling of
`\r` never meets a raw stream.

Where the documentation and the code disagree, the model follows the code:
- `pn_trunk` declares no `choices` for `pn_lacp_timeout`
  (`ansible/library/pn_trunk.py:212`), although its documentation lists
  `slow`/`fast`. Any value is accepted.
- `pn_vlag`'s `pn_lacp_fallback` choices are `individual` and `bundled`
  (`ansible/roles/examples/library/pn_vlag.py:167`), not the documented
  `bundle`.
- `pn_vlag` appends `' peer-switch' + peer_switch` with no space after the
  option name (line 220). The documented example's table vector therefore
  holds the single token `peer-switchspine02`, as `Vlag.CreateExample` states,
  and `Vlag.CreateExampleRuns` shows that the tool is handed that token too.
- `pn_trunk` adds `' lacp-priority '` to an `int`
  (`ansible/library/pn_trunk.py:295`). Python refuses that for any non-zero
  priority, so `Trunk.Build` fails exactly then. A zero or absent priority
  adds nothing.
- `pn_ebgp_configuration` reads the five fields of the last non-comment row
  only after the loop (lines 302-315). Empty data, or data made only of
  comments, leaves them unbound. A non-comment row with fewer than five cells
  makes `pop(0)` fail. `Ebgp.ParseBgpData` reports these outcomes as
  `NoDataRow` and `ShortRow(i)`.

## Model

| member | source | states |
|---|---|---|
| `Trunk.BadChoicesEmpty` | ansible/library/pn_trunk.py:200-213 | The choice check finds nothing exactly when the command, speed, LACP mode and LACP fallback each hold one of their listed values (the LACP timeout has none) |
| `Trunk.MissingForCommand` | ansible/library/pn_trunk.py:229-233 | For a named trunk, `required_if` reports `pn_ports` exactly for a `trunk-create` without ports, and nothing otherwise |
| `Trunk.ValidateAccepts` | ansible/library/pn_trunk.py:195-233 | A request passes exactly when it names the trunk, its choices hold, and a create also gives ports |
| `Trunk.RequiredFields` | ansible/library/pn_trunk.py:229-233 | A create without ports is refused naming `pn_ports` alone; delete and modify need only the name |
| `Trunk.Build` | ansible/library/pn_trunk.py:264-352 | Building fails exactly for a non-zero LACP priority (`str + int`); otherwise the table vector starts with the head tokens |
| `Trunk.HeadShape` | ansible/library/pn_trunk.py:265-270 | The head is `/usr/bin/cli`, then `--quiet` exactly when quiet, then `--user <username>:<password>` |
| `Trunk.PrefixShape` | ansible/library/pn_trunk.py:265-270 | The table vector begins with those tokens at those positions |
| `Trunk.ClausesInOrder` | ansible/library/pn_trunk.py:277-352 | The option clauses follow the fixed order of the source's `if` chain, so no option appears twice |
| `Trunk.ClauseOfField` | ansible/library/pn_trunk.py:277-352 | Each option has a clause exactly when its setting renders, holding the rendered tokens |
| `Trunk.TogglesRender` | ansible/library/pn_trunk.py:277-352 | Every boolean option (jumbo, edge-switch, pause, loopback, mirror-receive-only, routing, host) renders its positive token for `True`, its negative token for `False`, and nothing when unset |
| `Trunk.PairsRender` | ansible/library/pn_trunk.py:277-352 | Every string or enum option renders `<cli-name> <value>` exactly when its value is non-empty |
| `Trunk.DroppedNeverRendered` | ansible/library/pn_trunk.py:294-295 | The LACP priority never yields a clause |
| `Trunk.WordsOfField` | ansible/library/pn_trunk.py:277-352 | Each option's piece of the string is empty or starts with a space, and splits into exactly that option's clause |
| `Trunk.WordsOfSwitch` | ansible/library/pn_trunk.py:272-273 | The switch piece splits into `switch-local` for `local`, `switch <value>` for another non-empty value, and nothing otherwise |
| `Trunk.WordsOfHead` | ansible/library/pn_trunk.py:265-275 | The string up to the trunk name splits into the head tokens |
| `Trunk.TextSplitsToArgv` | ansible/library/pn_trunk.py:264-355 | With plain values, `shlex.split` of the reported command string yields exactly the table vector |
| `Trunk.MakeReport` | ansible/library/pn_trunk.py:361-376 | The run changed something exactly when stderr is empty; then only `stdout` is reported, otherwise only `stderr`, each without trailing CR/LF |
| `Trunk.RejectedBeforeRunning` | ansible/library/pn_trunk.py:195-233 | A refused request never reaches the tool: its outcome is the validation failure whatever the tool would do |
| `Trunk.RunOutcome` | ansible/library/pn_trunk.py:355-376 | A completed run reports the built string, and reports `changed` exactly when the tool, given the split of that string, wrote no stderr |
| `Trunk.PlainRunOutcome` | ansible/library/pn_trunk.py:355-376 | With plain values, the tool runs the table vector: `changed` exactly when the tool, given that vector, wrote no stderr |
| `Trunk.MinimalClauses` | ansible/library/pn_trunk.py:277-352 | A request that sets nothing but ports has the ports clause alone, or no clause when ports are empty |
| `Trunk.CreateExample` | ansible/library/pn_trunk.py:159-165 | The documented create passes validation, and its table vector is `/usr/bin/cli --quiet --user u:p trunk-create name <name> ports <ports>` |
| `Trunk.CreateExampleRuns` | ansible/library/pn_trunk.py:159-165 | With plain credentials, name and ports, the documented create's string splits into exactly those tokens, so the tool runs them |
| `Vlag.BadChoicesEmpty` | ansible/roles/examples/library/pn_vlag.py:151-168 | The choice check finds nothing exactly when the command, mode, failover action, LACP mode, timeout and fallback each hold one of their listed values |
| `Vlag.MissingForCommand` | ansible/roles/examples/library/pn_vlag.py:173-178 | For a named VLAG, `required_if` reports the missing ones of `pn_port` and `pn_peer_port`, in that order, only for `vlag-create` |
| `Vlag.ValidateAccepts` | ansible/roles/examples/library/pn_vlag.py:144-179 | A request passes exactly when it names the VLAG, its choices hold, and a create also gives both ports |
| `Vlag.RequiredFields` | ansible/roles/examples/library/pn_vlag.py:173-178 | A create missing a port is refused naming that port; delete and modify need only the name |
| `Vlag.Build` | ansible/roles/examples/library/pn_vlag.py:198-235 | The table vector starts with the head tokens |
| `Vlag.HeadShape` | ansible/roles/examples/library/pn_vlag.py:199-203 | The head is `/usr/bin/cli`, then `--quiet` exactly when quiet, then `--user <username>:<password>` |
| `Vlag.PrefixShape` | ansible/roles/examples/library/pn_vlag.py:199-203 | The table vector begins with those tokens at those positions |
| `Vlag.SwitchHead` | ansible/roles/examples/library/pn_vlag.py:205-208 | In the head, any non-empty switch (`local` included) follows the credentials as `switch <value>`; otherwise the command follows them |
| `Vlag.SwitchClause` | ansible/roles/examples/library/pn_vlag.py:205-208 | The same holds at those positions of the table vector |
| `Vlag.ClausesInOrder` | ansible/roles/examples/library/pn_vlag.py:210-235 | The option clauses follow the fixed order of the source's `if` chain, so no option appears twice |
| `Vlag.ClauseOfField` | ansible/roles/examples/library/pn_vlag.py:210-235 | Each option has a clause exactly when its setting renders, holding the rendered tokens |
| `Vlag.PairsRender` | ansible/roles/examples/library/pn_vlag.py:210-217 | Every spaced option renders `<cli-name> <value>` exactly when its value is non-empty |
| `Vlag.GluedRender` | ansible/roles/examples/library/pn_vlag.py:219-223 | The peer switch renders the one token `peer-switch<value>`, and the failover action the one token `failover-<value>-L2`, exactly when set |
| `Vlag.GluedPlain` | ansible/roles/examples/library/pn_vlag.py:219-223 | A glued token built from plain pieces is itself one plain shell word |
| `Vlag.WordsOfField` | ansible/roles/examples/library/pn_vlag.py:210-235 | Each option's piece of the string is empty or starts with a space, and splits into exactly that option's clause |
| `Vlag.WordsOfHead` | ansible/roles/examples/library/pn_vlag.py:199-208 | The string up to the VLAG name splits into the head tokens |
| `Vlag.TextSplitsToArgv` | ansible/roles/examples/library/pn_vlag.py:198-238 | With plain values, `shlex.split` of the reported command string yields exactly the table vector |
| `Vlag.MakeReport` | ansible/roles/examples/library/pn_vlag.py:246-261 | The run changed something and `rc` is 0 exactly when stderr is empty (else `rc` is 1); only the matching stream is reported, without trailing CR/LF |
| `Vlag.RejectedBeforeRunning` | ansible/roles/examples/library/pn_vlag.py:144-179 | A refused request never reaches the tool |
| `Vlag.RunOutcome` | ansible/roles/examples/library/pn_vlag.py:238-261 | A validated request always runs, reports the built string, and has `rc` 0 exactly when the tool, given the split of that string, wrote no stderr |
| `Vlag.PlainRunOutcome` | ansible/roles/examples/library/pn_vlag.py:238-261 | With plain values, a validated request runs the table vector and has `rc` 0 exactly when the tool, given that vector, wrote no stderr |
| `Vlag.DocumentedClauses` | ansible/roles/examples/library/pn_vlag.py:210-235 | With only port, peer port, mode and peer switch set, the clauses are those four in table order, the peer switch glued to its option |
| `Vlag.CreateExample` | ansible/roles/examples/library/pn_vlag.py:100-110 | The documented create passes validation, and its table vector is `... vlag-create name <name> port <p> peer-port <q> mode active-active peer-switch<s>` |
| `Vlag.CreateExampleRuns` | ansible/roles/examples/library/pn_vlag.py:100-110 | With plain credentials, name, ports and peer switch, the documented create's string splits into exactly those tokens, `peer-switch<s>` as one, so the tool runs them |
| `Ebgp.WordsOfPrefix` | library/pn_ebgp_configuration.py:98-112 | The prefix splits into `/usr/bin/cli --quiet`, followed by `--user <username>:<password>` exactly when both credentials are non-empty |
| `Ebgp.RunCli` | library/pn_ebgp_configuration.py:115-144 | Non-empty output is returned as is; empty output with empty stderr returns `Success`; empty output with stderr ends the module as failed and unchanged, with the stripped stderr as exception and one summary line for the switch |
| `Ebgp.FailureNamesCommand` | library/pn_ebgp_configuration.py:129-132 | The failure line is `Operation Failed: ` followed by words that are exactly the split command |
| `Ebgp.ParseRows` | library/pn_ebgp_configuration.py:302-311 | The row loop fails at the first short non-comment row; finds nothing exactly when every row is a comment; otherwise yields the first five cells of the last non-comment row |
| `Ebgp.ParseBgpData` | library/pn_ebgp_configuration.py:298-311 | Empty data yields no row; otherwise the spaces are removed, the text is split on newlines, and the rows are read as above |
| `Ebgp.RowsOfLines` | library/pn_ebgp_configuration.py:300-301 | Lines without spaces or newlines, joined by newlines, come back as the same rows |
| `Ebgp.RowsIgnoreSpaces` | library/pn_ebgp_configuration.py:300 | A space anywhere in the data changes no row |
| `Ebgp.TrailingNewlineIsShort` | library/pn_ebgp_configuration.py:300-311 | Data ending in a newline has an empty last row, which counts as short |
| `Ebgp.NeighborDropsPrefixLength` | library/pn_ebgp_configuration.py:219 | `a/len` with `/` not in `a` gives the neighbour address `a` |
| `Ebgp.NeighborWithoutLength` | library/pn_ebgp_configuration.py:219 | An address without `/` is kept as it is |
| `Ebgp.AutoTrunkCommand` | library/pn_ebgp_configuration.py:239-253 | A command is produced exactly when the lowered flag is `enable` or `disable` |
| `Ebgp.AutoTrunkIgnoresCase` | library/pn_ebgp_configuration.py:248-251 | The flag's token depends on the flag only through its lower-case form |
| `Ebgp.AutoTrunkFlags` | library/pn_ebgp_configuration.py:248-253 | `Enable` gives `auto-trunk`, `DISABLE` gives `no-auto-trunk`, `enabled` gives nothing |
| `Ebgp.WordsOfAutoTrunk` | library/pn_ebgp_configuration.py:247-253 | The command splits into the prefix's words and `switch <switch> system-settings-modify <token>` |
| `Ebgp.CreateVrouter` | library/pn_ebgp_configuration.py:160-178 | A create command is issued, and a change recorded, exactly when the name is not among the whitespace-separated words of the show output; otherwise the output is empty |
| `Ebgp.SilentShowCreates` | library/pn_ebgp_configuration.py:162-167 | When the show prints nothing, `run_cli` returns `Success`, which never names `<switch>-vrouter`, so the vrouter is created |
| `Ebgp.ListedVrouterKept` | library/pn_ebgp_configuration.py:164-167 | A show output listing the name among its words leads to no create |
| `Ebgp.WordsOfVrouterCreate` | library/pn_ebgp_configuration.py:170-174 | The create command splits into the prefix's words, `vrouter-create name <name>`, `vnet <vnet> enable` and `router-type hardware` |
| `Ebgp.Recorded` | library/pn_ebgp_configuration.py:175 | Steps only ever append `True`, at most one per step |
| `Ebgp.StepsFlag` | library/pn_ebgp_configuration.py:358 | Over vrouter-create steps, each recording a change exactly when it issues its create, `changed` is reported exactly when some step issued a create |
| `Ebgp.VrouterFlag` | library/pn_ebgp_configuration.py:160-178 | The vrouter step sets the module's `changed` flag exactly when the show output does not list the vrouter |
| `Ebgp.ChangedFlagAppend` | library/pn_ebgp_configuration.py:175 | Recording more changes keeps the flag set once any change, earlier or later, is true |
| `CliArgs.Missing` | ansible/library/pn_trunk.py:229-233 | `required_if` reports exactly the required parameters that were not supplied |
| `CliArgs.CollectLookup` | ansible/library/pn_trunk.py:277-352 | In an `if` chain of optional clauses, a field's clause is its rendering when the field is in the table, and absent otherwise |
| `CliArgs.CollectOrdered` | ansible/library/pn_trunk.py:277-352 | The clauses of an `if` chain appear in the order of the chain |
| `CliArgs.WordsOfConcat` | ansible/library/pn_trunk.py:277-355 | If each option's piece starts with a space and splits into its clause, the concatenation splits into the flattened clauses |
| `CliArgs.WordsOfLogin` | ansible/roles/examples/library/pn_vlag.py:199-203 | The login string splits into `/usr/bin/cli`, optionally `--quiet`, and `--user <username>:<password>` |
| `CliArgs.TrimEol` | ansible/library/pn_trunk.py:367 | `rstrip("\r\n")` removes exactly the trailing run of CR and LF characters and keeps the rest |
| `PyText.WordsOfJoin` | library/pn_ebgp_configuration.py:123-131 | Splitting on whitespace a space-joined list of non-empty words gives back the list |
| `PyText.WordsAppend` | library/pn_ebgp_configuration.py:123 | Splitting a concatenation whose second part starts with whitespace splits each part separately |
| `PyText.SplitOnJoin` | library/pn_ebgp_configuration.py:301 | `split(c)` inverts `join` with `c` for parts that do not contain `c` |
| `PyText.SplitOn` | library/pn_ebgp_configuration.py:301 | `split(c)` gives at least one part, none containing `c`, and joining them with `c` restores the string |
| `PyText.SplitOnTrailing` | library/pn_ebgp_configuration.py:301 | A string ending in `c` splits with an empty last part |
| `PyText.Strip` | library/pn_ebgp_configuration.py:137 | `strip()` is the middle of the string between whitespace-only ends, with non-whitespace at both edges |
| `PyText.RStripUnique` | ansible/library/pn_trunk.py:367 | The trailing-trim result is the only prefix that leaves just trimmed characters behind and does not end in one |
| `PyText.RStripIdempotent` | ansible/library/pn_trunk.py:367 | Trimming twice is trimming once |
| `PyText.RemoveAll` | library/pn_ebgp_configuration.py:300 | `replace(' ', '')` leaves no space and keeps every other character's count |
| `PyText.RemoveAllAppend` | library/pn_ebgp_configuration.py:300 | Removing spaces distributes over concatenation |
| `PyText.Before` | library/pn_ebgp_configuration.py:219 | `split('/')[0]` is the longest prefix without `/`, followed by `/` when shorter than the string |
| `PyText.Lower` | library/pn_ebgp_configuration.py:248 | `lower()` keeps the length, leaves no upper-case ASCII letter, turns each one into its lower-case partner and keeps every other character |
| `PyText.LowerIdempotent` | library/pn_ebgp_configuration.py:248 | Lowering twice is lowering once |

## Left out

- CliArgs.Argv: splits on whitespace only, so it equals `shlex.split` only
  for strings without quotes or backslashes; quoting and escapes are not
  modelled.
- Quoting in `shlex.split`. The argument vector is proved equal to the split
  string only when every value is a plain shell word. Values with
  whitespace, quotes or backslashes are outside `TextSplitsToArgv`'s
  precondition.
- Running the tool (`subprocess.Popen`, `module.run_command`). It is a
  function parameter from argument vector to `(stdout, stderr)`, the streams
  after `universal_newlines=True` translation. The translation itself is not
  modelled. Return codes are not modelled: none of the modelled code reads
  them.
- Ansible's `AnsibleModule` beyond `required`, `choices` and `required_if`:
  aliases, the `type=` conversions, `no_log` and defaults. Parameters arrive
  already parsed: `None` for absent, `TriBool` for `type='bool'`, `int` for
  the LACP priority, and a `bool` for `pn_quiet` (default true). The
  credentials and `pn_command` of trunk and VLAG are plain strings because
  they are declared `required=True`, so a missing one cannot be represented.
- Which parameter set Ansible reports first. The model refuses a missing name
  before bad choices, and bad choices before `required_if`. It reports bad
  choices as a set, since the reporting order depends on Python 2 dict
  ordering.
- The orchestration in `bgp_configuration`, `vrouter_interface_bgp_add` and
  `delete_trunk`. These are sequences of `run_cli` calls whose outcomes depend
  on the switch. The model covers their pure parts: the prefix, `run_cli`'s
  outcomes, the CSV loop, the neighbour split, the auto-trunk command, the
  vrouter decision and the `changed` flag.
- `delete_trunk`'s `list(set(...))[0]` and the fabric name. Both pick an
  element of an unordered set, which the source leaves unspecified.
- `main`'s `splitlines` summary of `pn_ebgp_configuration`. It is message
  formatting only.
- `CHANGED_FLAG` as a module-level global. `Ebgp.ChangedFlag` takes the
  recorded list as a value.
- Ebgp.StepsFlag: covers the vrouter-create step only. The appends of
  `vrouter_interface_bgp_add` and `delete_trunk`
  (library/pn_ebgp_configuration.py lines 217, 234 and 276) depend on the
  switch's output and are not modelled. The auto-trunk and `bgp-as` commands
  issue a command but never append, so over a whole run the module can issue
  commands and still report `changed` false.
- `run_cli`'s `module.exit_json`. It is the `Exited` outcome, which carries
  the report; the model does not stop a surrounding computation.
- `create_vrouter`'s `is None` branches. `run_cli` never returns `None` (it
  returns the output, `Success`, or exits), so those branches cannot run.
- PyText.Lower: lowers ASCII letters only, which is what Python 2's `str.lower()`
  does on the byte strings the module receives. Only a `unicode` value, which
  also has non-ASCII letters lowered, would differ.
- Trunk.Build: states the shape of the argument vector and
  not the raw string character by character. The string is tied to the
  vector by `TextSplitsToArgv`.
- Vlag.Build: the same as `Trunk.Build`.

=== FILE: cliargs.dfy ===
/**
 What the trunk and VLAG modules share: how an optional module parameter turns
 into command-line tokens, how the optional clauses are collected in the
 module's fixed field order, the `required_if` check, and the shape of the
 tool's output.
 */
module CliArgs {
  import opened Wrappers
  import opened PyText

  /** Python truthiness of an optional `str` parameter: supplied and non-empty. */
  predicate Truthy(v: Option<string>) {
    v.Some? && v.value != ""
  }

  /** An optional value that, when supplied, survives shell splitting as part of one word. */
  predicate PlainValue(v: Option<string>) {
    v.None? || Safe(v.value)
  }

  /** A `type='bool'` parameter without a default: `True`, `False` or not supplied (`None`). */
  datatype TriBool = Unset | Yes | No

  /** One row of a module's field table: how one parameter is rendered. */
  datatype Setting =
      /** `<name> <value>` when the value is truthy. */
    | Pair(name: string, value: Option<string>)
      /** The single token `<prefix><value><suffix>` when the value is truthy. */
    | Glued(prefix: string, value: Option<string>, suffix: string)
      /** `<on>` for `True`, `<off>` for `False`, nothing when not supplied. */
    | Toggle(on: string, off: string, state: TriBool)
      /** A parameter that never contributes tokens. */
    | Dropped

  /** The tokens a setting contributes, if any. */
  function Render(s: Setting): Option<seq<string>>
  {
    match s
    case Pair(name, v) => if Truthy(v) then Some([name, v.value]) else None
    case Glued(prefix, v, suffix) => if Truthy(v) then Some([prefix + v.value + suffix]) else None
    case Toggle(on, off, state) =>
      (match state
       case Unset => None
       case Yes => Some([on])
       case No => Some([off]))
    case Dropped => None
  }

  /** What a tri-state setting renders, case by case. */
  lemma ToggleRenders(s: Setting, x: Option<seq<string>>)
    requires s.Toggle? && x == Render(s)
    ensures s.state == Yes ==> x == Some([s.on])
    ensures s.state == No ==> x == Some([s.off])
    ensures s.state == Unset ==> x == None
  {
  }

  // ---------------------------------------------------------------------------
  // Clauses in field order
  // ---------------------------------------------------------------------------

  /** The tokens one field contributed to a command. */
  datatype Clause<F> = Clause(field: F, tokens: seq<string>)

  /** One clause for every field in `fields` that renders, in the order of `fields`. */
  function Collect<F(==)>(fields: seq<F>, render: F -> Option<seq<string>>): (cs: seq<Clause<F>>)
    ensures |cs| <= |fields|
    ensures forall c <- cs :: c.field in fields && render(c.field) == Some(c.tokens)
  {
    if fields == [] then []
    else
      var rest := Collect(fields[1..], render);
      match render(fields[0])
      case Some(t) => [Clause(fields[0], t)] + rest
      case None => rest
  }

  /** Fields that all render nothing yield no clauses. */
  lemma {:induction false} CollectNone<F>(fields: seq<F>, render: F -> Option<seq<string>>)
    requires forall f <- fields :: render(f) == None
    ensures Collect(fields, render) == []
    decreases |fields|
  {
    if fields != [] {
      assert fields[0] in fields;
      assert forall f <- fields[1..] :: f in fields;
      CollectNone(fields[1..], render);
    }
  }

  /** One step of collecting: the first field's clause, if it renders, then the rest. */
  lemma CollectStep<F>(fields: seq<F>, render: F -> Option<seq<string>>)
    requires fields != []
    ensures Collect(fields, render)
            == (match render(fields[0])
                case Some(t) => [Clause(fields[0], t)]
                case None => []) + Collect(fields[1..], render)
  {
  }

  /** The tokens each field renders, field after field. */
  function Emitted<F>(fields: seq<F>, render: F -> Option<seq<string>>): seq<string>
  {
    if fields == [] then [] else render(fields[0]).GetOr([]) + Emitted(fields[1..], render)
  }

  /** Flattening the collected clauses gives every field's tokens in table order. */
  lemma {:induction false} FlattenCollect<F>(fields: seq<F>, render: F -> Option<seq<string>>)
    ensures Flatten(Collect(fields, render)) == Emitted(fields, render)
    decreases |fields|
  {
    if fields != [] {
      FlattenCollect(fields[1..], render);
      var rest := Collect(fields[1..], render);
      match render(fields[0])
      case Some(t) =>
        assert ([Clause(fields[0], t)] + rest)[1..] == rest;
      case None =>
    }
  }

  /** The tokens of the first clause for `f`, if there is one. */
  function Lookup<F(==)>(cs: seq<Clause<F>>, f: F): Option<seq<string>>
  {
    if cs == [] then None
    else if cs[0].field == f then Some(cs[0].tokens)
    else Lookup(cs[1..], f)
  }

  /** All clause tokens, clause after clause. */
  function Flatten<F>(cs: seq<Clause<F>>): seq<string>
  {
    if cs == [] then [] else cs[0].tokens + Flatten(cs[1..])
  }

  /** A sequence that begins with `head` agrees with it on every position of `head`. */
  lemma AgreesWithPrefix<T>(head: seq<T>, s: seq<T>)
    requires |head| <= |s| && s[..|head|] == head
    ensures forall i :: 0 <= i < |head| ==> s[i] == head[i]
  {
    forall i | 0 <= i < |head| ensures s[i] == head[i] {
      assert s[..|head|][i] == s[i];
    }
  }

  /** A single clause flattens to its own tokens. */
  lemma FlattenOne<F>(c: Clause<F>)
    ensures Flatten([c]) == c.tokens
  {
    assert [c][1..] == [];
  }

  /** Clause ranks strictly increase: the clauses follow the field order and no field has two. */
  predicate InOrder<F>(cs: seq<Clause<F>>, rank: F -> int) {
    forall i, j :: 0 <= i < j < |cs| ==> rank(cs[i].field) < rank(cs[j].field)
  }

  /** A field of the table has a clause exactly when it renders, and that clause holds its tokens. */
  lemma {:induction false} CollectLookup<F>(fields: seq<F>, render: F -> Option<seq<string>>, f: F)
    ensures Lookup(Collect(fields, render), f) == (if f in fields then render(f) else None)
    decreases |fields|
  {
    if fields != [] {
      CollectLookup(fields[1..], render, f);
      assert f in fields <==> f == fields[0] || f in fields[1..] by {
        assert fields == [fields[0]] + fields[1..];
      }
      var rest := Collect(fields[1..], render);
      match render(fields[0])
      case Some(t) =>
        assert ([Clause(fields[0], t)] + rest)[1..] == rest;
      case None =>
    }
  }

  /** Collecting from a table whose fields strictly increase in rank yields clauses in that order. */
  lemma {:induction false} CollectOrdered<F>(fields: seq<F>, render: F -> Option<seq<string>>, rank: F -> int)
    requires forall i, j :: 0 <= i < j < |fields| ==> rank(fields[i]) < rank(fields[j])
    ensures InOrder(Collect(fields, render), rank)
    decreases |fields|
  {
    if fields != [] {
      var rest := Collect(fields[1..], render);
      CollectOrdered(fields[1..], render, rank);
      forall c | c in rest ensures rank(fields[0]) < rank(c.field) {
        RankAfterHead(fields, rank, c.field);
      }
      match render(fields[0])
      case Some(t) =>
        InOrderCons(Clause(fields[0], t), rest, rank);
      case None =>
    }
  }

  lemma RankAfterHead<F>(fields: seq<F>, rank: F -> int, f: F)
    requires forall i, j :: 0 <= i < j < |fields| ==> rank(fields[i]) < rank(fields[j])
    requires fields != [] && f in fields[1..]
    ensures rank(fields[0]) < rank(f)
  {
    var k :| 0 <= k < |fields[1..]| && fields[1..][k] == f;
    assert fields[k + 1] == f;
  }

  lemma InOrderCons<F>(c: Clause<F>, rest: seq<Clause<F>>, rank: F -> int)
    requires InOrder(rest, rank)
    requires forall d | d in rest :: rank(c.field) < rank(d.field)
    ensures InOrder([c] + rest, rank)
  {
    var cs := [c] + rest;
    forall i, j | 0 <= i < j < |cs| ensures rank(cs[i].field) < rank(cs[j].field) {
      if i == 0 {
        assert cs[j] == rest[j - 1];
        assert cs[j] in rest;
      } else {
        assert cs[i] == rest[i - 1] && cs[j] == rest[j - 1];
      }
    }
  }

  /** In ordered clauses every field has at most one clause. */
  lemma InOrderDistinct<F>(cs: seq<Clause<F>>, rank: F -> int)
    requires InOrder(cs, rank)
    ensures forall i, j :: 0 <= i < |cs| && 0 <= j < |cs| && cs[i].field == cs[j].field ==> i == j
  {
  }

  // ---------------------------------------------------------------------------
  // The command string and its words
  // ---------------------------------------------------------------------------

  /** The text pieces of the fields, in field order, concatenated. */
  function Concat<F>(fields: seq<F>, text: F -> string): string
  {
    if fields == [] then "" else text(fields[0]) + Concat(fields[1..], text)
  }

  /** Pieces that each start with a separator (or are empty) concatenate to such a string. */
  lemma {:induction false} ConcatLeads<F>(fields: seq<F>, text: F -> string, ws: set<char>)
    requires forall i :: 0 <= i < |fields| ==> text(fields[i]) == [] || text(fields[i])[0] in ws
    ensures Concat(fields, text) == [] || Concat(fields, text)[0] in ws
    decreases |fields|
  {
    if fields != [] {
      ConcatLeads(fields[1..], text, ws);
    }
  }

  /**
   When each field's piece of text starts with a separator and splits into the
   tokens the field renders, the whole text splits into the flattened clauses.
   */
  lemma {:induction false} WordsOfConcat<F>(fields: seq<F>, text: F -> string,
                                                render: F -> Option<seq<string>>, ws: set<char>)
    requires forall i :: 0 <= i < |fields| ==> text(fields[i]) == [] || text(fields[i])[0] in ws
    requires forall i :: 0 <= i < |fields| ==> Words(text(fields[i]), ws) == render(fields[i]).GetOr([])
    ensures Words(Concat(fields, text), ws) == Flatten(Collect(fields, render))
    decreases |fields|
  {
    if fields != [] {
      var rest := Concat(fields[1..], text);
      ConcatLeads(fields[1..], text, ws);
      WordsAppend(text(fields[0]), rest, ws);
      WordsOfConcat(fields[1..], text, render, ws);
      var cs := Collect(fields[1..], render);
      match render(fields[0])
      case Some(t) =>
        assert ([Clause(fields[0], t)] + cs)[1..] == cs;
      case None =>
    }
  }

  /** `" " + a + " " + b` splits into `[a, b]` when both words are plain. */
  lemma WordsOfPair(a: string, b: string)
    requires Plain(a) && Plain(b)
    ensures Words(" " + a + " " + b, ShellSpace) == [a, b]
  {
    SafeNoSpace(a);
    SafeNoSpace(b);
    WordsPair(a, b, ShellSpace);
  }

  /** A plain word on its own splits into itself. */
  lemma WordsOfPlain(w: string)
    requires Plain(w)
    ensures Words(w, ShellSpace) == [w]
  {
    SafeNoSpace(w);
    WordsOfWord(w, ShellSpace);
  }

  /** `" " + w + " "` and `" " + w` split into `[w]` when `w` is plain. */
  lemma WordsOfPadded(w: string)
    requires Plain(w)
    ensures Words(" " + w, ShellSpace) == [w]
    ensures Words(" " + w + " ", ShellSpace) == [w]
  {
    SafeNoSpace(w);
    WordsPadded(w, ShellSpace);
  }

  /** The fixed words both command lines use are plain. */
  lemma FixedWordsPlain()
    ensures && Plain("/usr/bin/cli") && Plain("--quiet") && Plain("--user")
            && Plain("switch") && Plain("name")
  {
  }

  /** `' <name> ' + value`, appended when the value is truthy. */
  function ArgText(name: string, v: Option<string>): string
  {
    if Truthy(v) then " " + name + " " + v.value else ""
  }

  lemma WordsOfArgText(name: string, v: Option<string>)
    requires Plain(name) && PlainValue(v)
    ensures var t := ArgText(name, v);
            && (t == [] || t[0] in ShellSpace)
            && Words(t, ShellSpace) == Render(Pair(name, v)).GetOr([])
  {
    if Truthy(v) {
      WordsOfPair(name, v.value);
    }
  }

  /** The credentials clause `' --user <username>:<password> '`. */
  function UserText(username: string, password: string): string
  {
    " --user " + (username + ":" + password) + " "
  }

  lemma WordsOfUser(username: string, password: string)
    requires Plain(username + ":" + password)
    ensures Words(UserText(username, password), ShellSpace) == ["--user", username + ":" + password]
  {
    var cred := username + ":" + password;
    assert UserText(username, password) == (" " + "--user" + " " + cred) + " ";
    WordsAppend(" " + "--user" + " " + cred, " ", ShellSpace);
    FixedWordsPlain();
    WordsOfPair("--user", cred);
    WordsOfBlank(" ", ShellSpace);
  }

  /** `/usr/bin/cli [--quiet] --user <username>:<password> `: the optional `--quiet`, then the credentials. */
  function LoginText(quiet: bool, username: string, password: string): string
  {
    "/usr/bin/cli" + (if quiet then " " + "--quiet" else "") + UserText(username, password)
  }

  /** The login text splits into `/usr/bin/cli`, the optional `--quiet` and the credentials. */
  lemma WordsOfLogin(quiet: bool, username: string, password: string)
    requires Plain(username + ":" + password)
    ensures Words(LoginText(quiet, username, password), ShellSpace)
            == ["/usr/bin/cli"] + (if quiet then ["--quiet"] else []) + ["--user", username + ":" + password]
  {
    var cli := "/usr/bin/cli";
    var q := if quiet then " " + "--quiet" else "";
    var user := UserText(username, password);
    FixedWordsPlain();
    WordsAppend(cli + q, user, ShellSpace);
    WordsAppend(cli, q, ShellSpace);
    WordsOfPlain(cli);
    if quiet {
      WordsOfPadded("--quiet");
    }
    WordsOfUser(username, password);
  }

  // ---------------------------------------------------------------------------
  // Validation and reporting
  // ---------------------------------------------------------------------------

  /** The parameters of `required` that were not supplied, in table order (Ansible's `required_if`). */
  function Missing(required: seq<string>, supplied: string -> bool): (missing: seq<string>)
    ensures forall x :: x in missing <==> x in required && !supplied(x)
  {
    if required == [] then []
    else
      var rest := Missing(required[1..], supplied);
      assert forall x :: x in required <==> x == required[0] || x in required[1..] by {
        assert required == [required[0]] + required[1..];
      }
      if supplied(required[0]) then rest else [required[0]] + rest
  }

  /** An optional parameter with `choices`: either not supplied or one of them. */
  predicate Chosen(v: Option<string>, choices: set<string>) {
    v.None? || v.value in choices
  }

  /** Why a request was refused before anything ran. */
  datatype ValidationError =
      /** Parameters that must be supplied for this command were not. */
    | MissingParams(missing: seq<string>)
      /** Parameters whose value is not among their choices. */
    | InvalidChoices(invalid: set<string>)

  /**
   The rendered command: the string the module reports, and the argument
   vector the field table gives. The module executes `Argv(text)`; the two
   vectors agree when every value is a plain word.
   */
  datatype Command = Command(text: string, argv: seq<string>)

  /**
   `shlex.split(cli)`, the vector handed to the tool. It is exact for a
   string without quotes or backslashes.
   */
  function Argv(cli: string): seq<string>
  {
    Words(cli, ShellSpace)
  }

  /**
   The tool's two streams as `communicate()` delivers them; with
   `universal_newlines=True` every line ending already arrives as `\n`.
   Its exit status is never read.
   */
  datatype ToolOutput = ToolOutput(stdout: string, stderr: string)

  /** `s.rstrip("\r\n")`. */
  function TrimEol(s: string): (r: string)
    ensures r <= s
    ensures forall i :: |r| <= i < |s| ==> s[i] == '\r' || s[i] == '\n'
    ensures r == [] || (r[|r| - 1] != '\r' && r[|r| - 1] != '\n')
  {
    RStrip(s, {'\r', '\n'})
  }
}

=== FILE: ebgp.dfy ===
/**
 The pure helpers of the `pn_ebgp_configuration` module: the `/usr/bin/cli`
 prefix, the three outcomes of running one command, the CSV rows of
 `pn_bgp_data`, the neighbour address sent to BGP, the auto-trunk setting,
 the decision to create the switch's vrouter, and the module's `changed`
 flag.
 */
module Ebgp {
  import opened Wrappers
  import opened PyText
  import opened CliArgs

  // ---------------------------------------------------------------------------
  // The command prefix
  // ---------------------------------------------------------------------------

  /** The start of every command: credentials only when both username and password are non-empty. */
  function CliPrefix(username: Option<string>, password: Option<string>): string
  {
    if Truthy(username) && Truthy(password) then LoginText(true, username.value, password.value)
    else "/usr/bin/cli" + " " + "--quiet" + " "
  }

  /** The prefix splits into the cli, `--quiet` and, when both are given, `--user` and the credentials. */
  lemma WordsOfPrefix(username: Option<string>, password: Option<string>)
    requires Truthy(username) && Truthy(password) ==> Plain(username.value + ":" + password.value)
    ensures Words(CliPrefix(username, password), ShellSpace)
            == ["/usr/bin/cli", "--quiet"]
               + (if Truthy(username) && Truthy(password)
                  then ["--user", username.value + ":" + password.value] else [])
  {
    if Truthy(username) && Truthy(password) {
      WordsOfLogin(true, username.value, password.value);
    } else {
      WordsOfBarePrefix();
    }
  }

  lemma WordsOfBarePrefix()
    ensures Words("/usr/bin/cli" + " " + "--quiet" + " ", ShellSpace) == ["/usr/bin/cli", "--quiet"]
  {
    FixedWordsPlain();
    WordsOfTwo("/usr/bin/cli", "--quiet");
  }

  lemma WordsOfTwo(a: string, b: string)
    requires Plain(a) && Plain(b)
    ensures Words(a + " " + b + " ", ShellSpace) == [a, b]
  {
    WordsAppend(a, " " + b + " ", ShellSpace);
    assert a + " " + b + " " == a + (" " + b + " ");
    WordsOfPlain(a);
    WordsOfPadded(b);
  }

  // ---------------------------------------------------------------------------
  // Running one command
  // ---------------------------------------------------------------------------

  /** One entry of the `summary` list of the final report. */
  datatype SummaryLine = SummaryLine(switch: string, output: string)

  /** The report the module exits with. */
  datatype ExitReport = ExitReport(
    unreachable: bool,
    failed: bool,
    exception: string,
    summary: seq<SummaryLine>,
    task: string,
    msg: string,
    changed: bool)

  /** Either the text a command returned to its caller, or the report the whole module exited with. */
  datatype CliOutcome = Returned(text: string) | Exited(report: ExitReport)

  const FailurePrefix: string := "Operation Failed: "

  /**
   Runs `cli` on `tool` (standing for the process launch) on behalf of `switch`.
   Output wins over an error; an error alone ends the module with a failure
   report; silence is read as `Success`.
   */
  function RunCli(cli: string, switch: string, tool: seq<string> -> ToolOutput): (r: CliOutcome)
    ensures var out := tool(Argv(cli));
            && (out.stdout != "" ==> r == Returned(out.stdout))
            && (r.Exited? <==> out.stdout == "" && out.stderr != "")
            && (out.stdout == "" && out.stderr == "" ==> r == Returned("Success"))
    ensures r.Returned? ==> r.text != ""
    ensures r.Exited? ==>
              && r.report.failed && !r.report.changed && !r.report.unreachable
              && r.report.exception == Strip(tool(Argv(cli)).stderr, PySpace)
              && |r.report.summary| == 1 && r.report.summary[0].switch == switch
  {
    var argv := Argv(cli);
    var out := tool(argv);
    if out.stdout != "" then
      Returned(out.stdout)
    else if out.stderr != "" then
      Exited(ExitReport(
        unreachable := false,
        failed := true,
        exception := Strip(out.stderr, PySpace),
        summary := [SummaryLine(switch, FailurePrefix + Join(argv, ' '))],
        task := "Configure eBGP",
        msg := "eBGP configuration failed",
        changed := false))
    else
      Returned("Success")
  }

  /** A failure report names the command that failed: its words after the prefix are the argument vector. */
  lemma FailureNamesCommand(cli: string, switch: string, tool: seq<string> -> ToolOutput)
    requires RunCli(cli, switch, tool).Exited?
    ensures var line := RunCli(cli, switch, tool).report.summary[0].output;
            && FailurePrefix <= line
            && Words(line[|FailurePrefix|..], ShellSpace) == Argv(cli)
  {
    var line := RunCli(cli, switch, tool).report.summary[0].output;
    assert line == FailurePrefix + Join(Argv(cli), ' ');
    assert line[|FailurePrefix|..] == Join(Argv(cli), ' ');
    WordsOfJoin(Argv(cli), ShellSpace);
  }

  // ---------------------------------------------------------------------------
  // The CSV rows of `pn_bgp_data`
  // ---------------------------------------------------------------------------

  /** The five values a data row supplies to the later commands. */
  datatype BgpRow = BgpRow(l3Port: string, interfaceIp: string, bgpAs: string, neighborIp: string, remoteAs: string)

  datatype ParseError =
    | NoDataRow          // no row defines the values, so the later commands name an unbound variable
    | ShortRow(row: nat) // this row has fewer than five comma-separated fields

  /** The rows: spaces removed, then split on newlines. */
  function Rows(data: string): seq<string>
  {
    SplitOn(RemoveAll(data, ' '), '\n')
  }

  /** `row.startswith('#')`. */
  predicate IsComment(row: string) {
    |row| > 0 && row[0] == '#'
  }

  function Cells(row: string): seq<string>
  {
    SplitOn(row, ',')
  }

  /** A data row too short to supply five fields. */
  predicate Short(row: string) {
    !IsComment(row) && |Cells(row)| < 5
  }

  /** The first five fields of a data row; any later ones are ignored. */
  function RowOf(row: string): BgpRow
    requires |Cells(row)| >= 5
  {
    var c := Cells(row);
    BgpRow(c[0], c[1], c[2], c[3], c[4])
  }

  /** `i` is the first short data row. */
  predicate FirstShort(rows: seq<string>, i: int) {
    0 <= i < |rows| && Short(rows[i]) && forall j :: 0 <= j < i ==> !Short(rows[j])
  }

  /** `k` is the last row that is not a comment. */
  predicate LastData(rows: seq<string>, k: int) {
    0 <= k < |rows| && !IsComment(rows[k]) && forall j :: k < j < |rows| ==> IsComment(rows[j])
  }

  /**
   The loop over the rows. Each data row overwrites the five values, so only
   the last one reaches the later commands; a short data row stops the loop.
   */
  method ParseRows(rows: seq<string>) returns (r: Result<BgpRow, ParseError>)
    ensures r.Failure? && r.error.ShortRow? ==> FirstShort(rows, r.error.row)
    ensures (exists i :: 0 <= i < |rows| && Short(rows[i])) ==> r.Failure? && r.error.ShortRow?
    ensures r == Failure(NoDataRow) <==> forall i :: 0 <= i < |rows| ==> IsComment(rows[i])
    ensures r.Success? ==> exists k :: LastData(rows, k) && |Cells(rows[k])| >= 5 && r.value == RowOf(rows[k])
  {
    var last: Option<BgpRow> := None;
    ghost var k := -1;
    var i := 0;
    while i < |rows|
      invariant 0 <= i <= |rows|
      invariant forall j :: 0 <= j < i ==> !Short(rows[j])
      invariant -1 <= k < i
      invariant k == -1 <==> last.None?
      invariant k == -1 ==> forall j :: 0 <= j < i ==> IsComment(rows[j])
      invariant k >= 0 ==> && !IsComment(rows[k]) && |Cells(rows[k])| >= 5
                           && last == Some(RowOf(rows[k]))
                           && forall j :: k < j < i ==> IsComment(rows[j])
    {
      var row := rows[i];
      if !IsComment(row) {
        var cells := Cells(row);
        if |cells| < 5 {
          return Failure(ShortRow(i));
        }
        last := Some(BgpRow(cells[0], cells[1], cells[2], cells[3], cells[4]));
        k := i;
      }
      i := i + 1;
    }
    if last.None? {
      return Failure(NoDataRow);
    }
    assert LastData(rows, k);
    return Success(last.value);
  }

  /** `pn_bgp_data` read as rows; empty data skips the loop altogether. */
  method ParseBgpData(data: string) returns (r: Result<BgpRow, ParseError>)
    ensures data == "" ==> r == Failure(NoDataRow)
    ensures data != "" ==>
              var rows := Rows(data);
              && (r.Failure? && r.error.ShortRow? ==> FirstShort(rows, r.error.row))
              && ((exists i :: 0 <= i < |rows| && Short(rows[i])) ==> r.Failure? && r.error.ShortRow?)
              && (r == Failure(NoDataRow) <==> forall i :: 0 <= i < |rows| ==> IsComment(rows[i]))
              && (r.Success? ==> exists k :: LastData(rows, k) && |Cells(rows[k])| >= 5 && r.value == RowOf(rows[k]))
  {
    if data == "" {
      return Failure(NoDataRow);
    }
    r := ParseRows(Rows(data));
  }

  /** A space-free line contributes exactly itself as a row. */
  lemma {:induction false} JoinFree(lines: seq<string>, c: char, x: char)
    requires x != c
    requires forall line <- lines :: x !in line
    ensures x !in Join(lines, c)
    decreases |lines|
  {
    if |lines| > 1 {
      assert lines[0] in lines;
      JoinFree(lines[1..], c, x);
    } else if |lines| == 1 {
      assert lines[0] in lines;
    }
  }

  /** Lines without spaces or newlines, joined by newlines, are read back as exactly those rows. */
  lemma RowsOfLines(lines: seq<string>)
    requires |lines| > 0
    requires forall line <- lines :: ' ' !in line && '\n' !in line
    ensures Rows(Join(lines, '\n')) == lines
  {
    JoinFree(lines, '\n', ' ');
    RemoveAllAbsent(Join(lines, '\n'), ' ');
    SplitOnJoin(lines, '\n');
  }

  /** Spaces anywhere in the data are irrelevant: only where the newlines and commas are counts. */
  lemma RowsIgnoreSpaces(a: string, b: string)
    ensures Rows(a + " " + b) == Rows(a + b)
  {
    RemoveAllAppend(a + " ", b, ' ');
    RemoveAllAppend(a, " ", ' ');
    RemoveAllAppend(a, b, ' ');
    assert RemoveAll(" ", ' ') == "" by {
      assert " "[1..] == "";
    }
    assert RemoveAll(a, ' ') + "" == RemoveAll(a, ' ');
  }

  /** Data that ends with a newline has an empty last row, which is a short data row. */
  lemma TrailingNewlineIsShort(data: string)
    requires data != "" && data[|data| - 1] == '\n'
    ensures var rows := Rows(data); |rows| > 1 && Short(rows[|rows| - 1])
  {
    var stripped := RemoveAll(data, ' ');
    var init := data[..|data| - 1];
    assert data == init + "\n";
    RemoveAllAppend(init, "\n", ' ');
    assert RemoveAll("\n", ' ') == "\n";
    SplitOnTrailing(stripped, '\n');
    var rows := Rows(data);
    assert rows[|rows| - 1] == "";
    assert |Cells("")| == 1 by {
      assert Join(Cells(""), ',') == "";
    }
  }

  // ---------------------------------------------------------------------------
  // The neighbour address
  // ---------------------------------------------------------------------------

  /** `neighbor_ip.split('/')[0]`: the address without its prefix length. */
  function NeighborAddress(ip: string): string
  {
    Before(ip, '/')
  }

  /** The prefix length after the first `/` is dropped. */
  lemma NeighborDropsPrefixLength(address: string, length: string)
    requires '/' !in address
    ensures NeighborAddress(address + "/" + length) == address
  {
    var ip := address + "/" + length;
    assert ip[..|address|] == address;
    FindUnique(ip, '/', |address|);
    BeforeIsFind(ip, '/');
  }

  /** An address with no prefix length is sent unchanged. */
  lemma NeighborWithoutLength(ip: string)
    requires '/' !in ip
    ensures NeighborAddress(ip) == ip
  {
    assert ip[..|ip|] == ip;
    FindUnique(ip, '/', |ip|);
    BeforeIsFind(ip, '/');
  }

  // ---------------------------------------------------------------------------
  // The auto-trunk setting
  // ---------------------------------------------------------------------------

  /** The setting token for a flag, compared without regard to case; other flags run nothing. */
  function AutoTrunkToken(flag: string): Option<string>
  {
    var f := Lower(flag);
    if f == "enable" then Some("auto-trunk")
    else if f == "disable" then Some("no-auto-trunk")
    else None
  }

  /** The command run for a flag, or `None` when the flag is neither `enable` nor `disable`. */
  function AutoTrunkCommand(prefix: string, switch: string, flag: string): (r: Option<string>)
    ensures r.Some? <==> AutoTrunkToken(flag).Some?
  {
    match AutoTrunkToken(flag)
    case None => None
    case Some(token) => Some(prefix + SettingsModifyText(switch, token))
  }

  /** `' switch %s system-settings-modify <token> '`. */
  function SettingsModifyText(switch: string, token: string): string
  {
    " " + "switch" + " " + switch + (" " + "system-settings-modify" + " " + token + " ")
  }

  lemma WordsOfSettingsModify(switch: string, token: string)
    requires Plain(switch) && Plain(token)
    ensures SettingsModifyText(switch, token)[0] == ' '
    ensures Words(SettingsModifyText(switch, token), ShellSpace) == ["switch", switch, "system-settings-modify", token]
  {
    var a := " " + "switch" + " " + switch;
    var b := " " + "system-settings-modify" + " " + token;
    WordsAppend(a, b + " ", ShellSpace);
    WordsAppend(b, " ", ShellSpace);
    AutoTrunkWordsPlain();
    WordsOfPair("switch", switch);
    WordsOfPair("system-settings-modify", token);
    WordsOfBlank(" ", ShellSpace);
  }

  /** The flag's case does not matter. */
  lemma AutoTrunkIgnoresCase(flag: string)
    ensures AutoTrunkToken(flag) == AutoTrunkToken(Lower(flag))
  {
    LowerIdempotent(flag);
  }

  /** Mixed-case spellings of the two flags are recognised; anything else is not. */
  lemma AutoTrunkFlags()
    ensures AutoTrunkToken("Enable") == Some("auto-trunk")
    ensures AutoTrunkToken("DISABLE") == Some("no-auto-trunk")
    ensures AutoTrunkToken("enabled") == None
  {
    assert Lower("Enable") == "enable";
    assert Lower("DISABLE") == "disable";
    assert Lower("enabled") == "enabled";
  }

  lemma TokenPlain(flag: string)
    requires AutoTrunkToken(flag).Some?
    ensures Plain(AutoTrunkToken(flag).value)
  {
    AutoTrunkWordsPlain();
  }

  /** The setting words are plain. */
  lemma AutoTrunkWordsPlain()
    ensures Plain("switch") && Plain("system-settings-modify")
    ensures Plain("auto-trunk") && Plain("no-auto-trunk")
  {
  }

  /** After the prefix come `switch <switch> system-settings-modify <token>`. */
  lemma WordsOfAutoTrunk(prefix: string, switch: string, flag: string)
    requires Plain(switch)
    requires AutoTrunkToken(flag).Some?
    ensures Words(AutoTrunkCommand(prefix, switch, flag).value, ShellSpace)
            == Words(prefix, ShellSpace) + ["switch", switch, "system-settings-modify", AutoTrunkToken(flag).value]
  {
    var token := AutoTrunkToken(flag).value;
    TokenPlain(flag);
    WordsOfSettingsModify(switch, token);
    WordsAppend(prefix, SettingsModifyText(switch, token), ShellSpace);
  }

  // ---------------------------------------------------------------------------
  // The vrouter
  // ---------------------------------------------------------------------------

  /** The switch's vrouter is named after it. */
  function VrouterName(switch: string): string
  {
    switch + "-vrouter"
  }

  /** What creating the vrouter did: the command issued (if any), whether it changed anything, the output line. */
  datatype VrouterStep = VrouterStep(command: Option<string>, changed: bool, output: string)

  function VrouterCreateText(prefix: string, name: string, vnet: string): string
  {
    prefix + CreateNameText(name) + VnetText(vnet) + RouterTypeText("hardware")
  }

  /** `' vrouter-create name %s '`. */
  function CreateNameText(name: string): string
  {
    " " + "vrouter-create" + " " + "name" + (" " + name + " ")
  }

  /** `' router-type <type> '`. */
  function RouterTypeText(routerType: string): string
  {
    " " + "router-type" + " " + routerType + " "
  }

  /** `' vnet %s enable '`. */
  function VnetText(vnet: string): string
  {
    " " + "vnet" + " " + vnet + (" " + "enable" + " ")
  }

  /**
   Creates the vrouter `name` on `vnet` unless `shown`, the text the
   `vrouter-show` returned, already lists it among its whitespace-separated
   words.
   */
  function CreateVrouter(prefix: string, name: string, vnet: string, shown: string): (r: VrouterStep)
    ensures r.changed <==> name !in Words(shown, PySpace)
    ensures r.changed <==> r.command.Some?
    ensures !r.changed ==> r.output == ""
  {
    if name !in Words(shown, PySpace) then
      VrouterStep(Some(VrouterCreateText(prefix, name, vnet)), true, "Created vrouter with name " + name + "\n")
    else
      VrouterStep(None, false, "")
  }

  /** A show that printed nothing comes back as `Success`, which never names a vrouter: the vrouter is created. */
  lemma SilentShowCreates(prefix: string, switch: string, vnet: string)
    ensures CreateVrouter(prefix, VrouterName(switch), vnet, "Success").changed
  {
    SuccessIsOneWord();
    assert |VrouterName(switch)| >= 8;
  }

  lemma SuccessIsOneWord()
    ensures Words("Success", PySpace) == ["Success"]
  {
    LettersNotSpace("Success");
    WordsOfWord("Success", PySpace);
  }

  /** ASCII letters are not Python whitespace. */
  lemma LettersNotSpace(s: string)
    requires forall i :: 0 <= i < |s| ==> 'A' <= s[i] <= 'z'
    ensures NoneIn(s, PySpace)
  {
  }

  /** Once the show lists the vrouter, nothing is created: creation is idempotent. */
  lemma ListedVrouterKept(prefix: string, name: string, vnet: string, listed: seq<string>)
    requires forall w <- listed :: w != [] && NoneIn(w, PySpace)
    requires name in listed
    ensures !CreateVrouter(prefix, name, vnet, Join(listed, ' ')).changed
  {
    assert ' ' in PySpace;
    WordsOfJoin(listed, PySpace);
  }

  /** The create words are plain. */
  lemma VrouterWordsPlain()
    ensures Plain("vrouter-create") && Plain("name") && Plain("vnet") && Plain("enable")
    ensures Plain("router-type") && Plain("hardware")
  {
  }

  lemma WordsOfCreateName(name: string)
    requires Plain(name)
    ensures Words(CreateNameText(name), ShellSpace) == ["vrouter-create", "name", name]
  {
    var a := " " + "vrouter-create" + " " + "name";
    WordsAppend(a, " " + name + " ", ShellSpace);
    VrouterWordsPlain();
    WordsOfPair("vrouter-create", "name");
    WordsOfPadded(name);
  }

  lemma WordsOfVnet(vnet: string)
    requires Plain(vnet)
    ensures Words(VnetText(vnet), ShellSpace) == ["vnet", vnet, "enable"]
  {
    var a := " " + "vnet" + " " + vnet;
    WordsAppend(a, " " + "enable" + " ", ShellSpace);
    VrouterWordsPlain();
    WordsOfPair("vnet", vnet);
    WordsOfPadded("enable");
  }

  lemma WordsOfRouterType(routerType: string)
    requires Plain(routerType)
    ensures Words(RouterTypeText(routerType), ShellSpace) == ["router-type", routerType]
  {
    var a := " " + "router-type" + " " + routerType;
    WordsAppend(a, " ", ShellSpace);
    VrouterWordsPlain();
    WordsOfPair("router-type", routerType);
    WordsOfBlank(" ", ShellSpace);
  }

  /** The create command names the vrouter, its vnet and the hardware router type. */
  lemma WordsOfVrouterCreate(prefix: string, name: string, vnet: string)
    requires Plain(name) && Plain(vnet)
    ensures Words(VrouterCreateText(prefix, name, vnet), ShellSpace)
            == Words(prefix, ShellSpace) + ["vrouter-create", "name", name]
               + ["vnet", vnet, "enable"] + ["router-type", "hardware"]
  {
    var n := CreateNameText(name);
    var v := VnetText(vnet);
    var h := RouterTypeText("hardware");
    WordsAppend(prefix + n + v, h, ShellSpace);
    WordsAppend(prefix + n, v, ShellSpace);
    WordsAppend(prefix, n, ShellSpace);
    WordsOfCreateName(name);
    WordsOfVnet(vnet);
    VrouterWordsPlain();
    WordsOfRouterType("hardware");
  }

  // ---------------------------------------------------------------------------
  // The module's `changed` flag
  // ---------------------------------------------------------------------------

  /** `True in CHANGED_FLAG`, where each step that changed something recorded `True`. */
  function ChangedFlag(recorded: seq<bool>): bool
  {
    true in recorded
  }

  /**
   What a run of steps appends to `CHANGED_FLAG`: a step that changed
   something appends `True`, any other step appends nothing.
   */
  function Recorded(steps: seq<VrouterStep>): (recorded: seq<bool>)
    ensures |recorded| <= |steps|
    ensures forall i :: 0 <= i < |recorded| ==> recorded[i]
  {
    if steps == [] then [] else (if steps[0].changed then [true] else []) + Recorded(steps[1..])
  }

  /**
   Over a run of vrouter-create steps, each of which records a change exactly
   when it issues its create, the flag is set exactly when one of them issued it.
   */
  lemma {:induction false} StepsFlag(steps: seq<VrouterStep>)
    requires forall i :: 0 <= i < |steps| ==> (steps[i].changed <==> steps[i].command.Some?)
    ensures ChangedFlag(Recorded(steps)) <==> exists i :: 0 <= i < |steps| && steps[i].command.Some?
  {
    if steps != [] {
      var head := if steps[0].changed then [true] else [];
      StepsFlag(steps[1..]);
      ChangedFlagAppend(head, Recorded(steps[1..]));
      if exists i :: 0 <= i < |steps| && steps[i].command.Some? {
        var i :| 0 <= i < |steps| && steps[i].command.Some?;
        if i > 0 {
          assert steps[1..][i - 1] == steps[i];
        }
      }
      if exists j :: 0 <= j < |steps[1..]| && steps[1..][j].command.Some? {
        var j :| 0 <= j < |steps[1..]| && steps[1..][j].command.Some?;
        assert steps[j + 1] == steps[1..][j];
      }
    }
  }

  /**
   The vrouter step alone turns the flag on exactly when the show did not list
   the vrouter.
   */
  lemma VrouterFlag(prefix: string, name: string, vnet: string, shown: string)
    ensures ChangedFlag(Recorded([CreateVrouter(prefix, name, vnet, shown)])) <==> name !in Words(shown, PySpace)
  {
    var steps := [CreateVrouter(prefix, name, vnet, shown)];
    StepsFlag(steps);
  }

  /** Recording more steps can only turn the flag on, and it is on iff either part turned it on. */
  lemma ChangedFlagAppend(a: seq<bool>, b: seq<bool>)
    ensures ChangedFlag(a + b) <==> ChangedFlag(a) || ChangedFlag(b)
  {
    if ChangedFlag(a + b) {
      var i :| 0 <= i < |a + b| && (a + b)[i];
      if i >= |a| {
        assert b[i - |a|];
      }
    }
    if ChangedFlag(b) {
      var i :| 0 <= i < |b| && b[i];
      assert (a + b)[|a| + i];
    }
  }
}

=== FILE: text.dfy ===
/**
 The handful of Python string operations the modules rely on, over `string`
 (a sequence of Unicode scalar values):

 - `Words(s, ws)`: `s.split()` (Python whitespace) and, for values without
   quotes or backslashes, `shlex.split(s)` (shell whitespace);
 - `RStrip(s, cs)` / `Strip(s, cs)`: `s.rstrip(cs)` / `s.strip()`;
 - `SplitOn(s, c)` / `Join(parts, c)`: `s.split(c)` / `c.join(parts)`;
 - `RemoveAll(s, c)`: `s.replace(c, '')`;
 - `Lower(s)`: `s.lower()` restricted to ASCII letters.
 */
module PyText {

  /** The characters `shlex.split` treats as separators. */
  const ShellSpace: set<char> := {' ', '\t', '\r', '\n'}

  /**
   The characters Python 2's `str.isspace` accepts on a byte string, which is
   what `run_command` returns there: `str.split()` and `str.strip()` use these.
   */
  const PySpace: set<char> := {' ', '\t', '\n', '\r', '\U{0B}', '\U{0C}'}

  /** No character of `s` belongs to `cs`. */
  predicate NoneIn(s: string, cs: set<char>) {
    forall i :: 0 <= i < |s| ==> s[i] !in cs
  }

  /** Every character of `s` belongs to `cs`. */
  predicate AllIn(s: string, cs: set<char>) {
    forall i :: 0 <= i < |s| ==> s[i] in cs
  }

  /** A character that is neither a shell separator nor a quoting character. */
  predicate ShellSafe(x: char) {
    x != ' ' && x != '\t' && x != '\r' && x != '\n' && x != '\'' && x != '"' && x != '\\'
  }

  /** No character of `s` is a shell separator or quoting character. */
  predicate Safe(s: string) {
    forall i :: 0 <= i < |s| ==> ShellSafe(s[i])
  }

  /** A word that survives shell splitting unchanged: non-empty, no separator, no quoting character. */
  predicate Plain(s: string) {
    s != [] && Safe(s)
  }

  /** A safe string contains no shell separator. */
  lemma SafeNoSpace(s: string)
    requires Safe(s)
    ensures NoneIn(s, ShellSpace)
  {
  }

  // ---------------------------------------------------------------------------
  // Splitting on runs of whitespace
  // ---------------------------------------------------------------------------

  /** Length of the word that starts `s`: it stops at the first character of `ws`. */
  function WordEnd(s: string, ws: set<char>): (k: nat)
    requires s != [] && s[0] !in ws
    ensures 0 < k <= |s|
    ensures NoneIn(s[..k], ws)
    ensures k < |s| ==> s[k] in ws
  {
    if |s| == 1 || s[1] in ws then 1 else 1 + WordEnd(s[1..], ws)
  }

  /** The maximal runs of characters outside `ws`, in order. */
  function Words(s: string, ws: set<char>): (words: seq<string>)
    ensures forall w <- words :: w != [] && NoneIn(w, ws)
    decreases |s|
  {
    if s == [] then []
    else if s[0] in ws then Words(s[1..], ws)
    else
      var k := WordEnd(s, ws);
      [s[..k]] + Words(s[k..], ws)
  }

  /** A word boundary is determined by the string: any `k` with the properties of `WordEnd` is it. */
  lemma WordEndUnique(s: string, ws: set<char>, k: nat)
    requires s != [] && s[0] !in ws
    requires 0 < k <= |s| && NoneIn(s[..k], ws) && (k < |s| ==> s[k] in ws)
    ensures WordEnd(s, ws) == k
  {
  }

  /** A string without separators is one word. */
  lemma WordsOfWord(w: string, ws: set<char>)
    requires w != [] && NoneIn(w, ws)
    ensures Words(w, ws) == [w]
  {
    assert w[..|w|] == w;
    WordEndUnique(w, ws, |w|);
    assert w[|w|..] == [];
  }

  /** A string of separators only has no words. */
  lemma {:induction false} WordsOfBlank(s: string, ws: set<char>)
    requires AllIn(s, ws)
    ensures Words(s, ws) == []
    decreases |s|
  {
    if s != [] {
      assert AllIn(s[1..], ws) by {
        forall i | 0 <= i < |s[1..]| ensures s[1..][i] in ws {
          assert s[1..][i] == s[i + 1];
        }
      }
      WordsOfBlank(s[1..], ws);
    }
  }

  /** Splitting distributes over a concatenation whose second part begins with a separator. */
  lemma {:induction false} WordsAppend(a: string, b: string, ws: set<char>)
    requires b == [] || b[0] in ws
    ensures Words(a + b, ws) == Words(a, ws) + Words(b, ws)
    decreases |a|
  {
    if a == [] {
      assert a + b == b;
    } else if a[0] in ws {
      assert (a + b)[1..] == a[1..] + b;
      WordsAppend(a[1..], b, ws);
    } else {
      var k := WordEnd(a, ws);
      assert (a + b)[..k] == a[..k];
      WordEndUnique(a + b, ws, k);
      assert a == a[..k] + a[k..];
      assert (a + b)[k..] == a[k..] + b;
      WordsAppend(a[k..], b, ws);
    }
  }

  /** Splitting distributes over a concatenation whose first part ends with a separator. */
  lemma {:induction false} WordsAppendAfter(a: string, b: string, ws: set<char>)
    requires a == [] || a[|a| - 1] in ws
    ensures Words(a + b, ws) == Words(a, ws) + Words(b, ws)
    decreases |a|
  {
    if a == [] {
      assert a + b == b;
    } else if a[0] in ws {
      assert (a + b)[1..] == a[1..] + b;
      WordsAppendAfter(a[1..], b, ws);
    } else {
      var k := WordEnd(a, ws);
      assert a[..k] == a[..|a|][..k];
      assert (a + b)[..k] == a[..k];
      WordEndUnique(a + b, ws, k);
      assert (a + b)[k..] == a[k..] + b;
      WordsAppendAfter(a[k..], b, ws);
    }
  }

  /** `" " + w + " "` and `" " + w` split to the single word `w`. */
  lemma WordsPadded(w: string, ws: set<char>)
    requires ' ' in ws
    requires w != [] && NoneIn(w, ws)
    ensures Words(" " + w, ws) == [w]
    ensures Words(" " + w + " ", ws) == [w]
  {
    WordsOfWord(w, ws);
    WordsAppendAfter(" ", w, ws);
    WordsOfBlank(" ", ws);
    WordsAppend(" " + w, " ", ws);
    WordsOfBlank(" ", ws);
  }

  /** `" " + a + " " + b` splits to `[a, b]`. */
  lemma WordsPair(a: string, b: string, ws: set<char>)
    requires ' ' in ws
    requires a != [] && NoneIn(a, ws)
    requires b != [] && NoneIn(b, ws)
    ensures Words(" " + a + " " + b, ws) == [a, b]
  {
    assert " " + a + " " + b == (" " + a) + (" " + b);
    WordsAppend(" " + a, " " + b, ws);
    WordsPadded(a, ws);
    WordsPadded(b, ws);
  }

  /** Joining non-empty separator-free words with single spaces and splitting again gives the words back. */
  lemma {:induction false} WordsOfJoin(words: seq<string>, ws: set<char>)
    requires ' ' in ws
    requires forall w <- words :: w != [] && NoneIn(w, ws)
    ensures Words(Join(words, ' '), ws) == words
    decreases |words|
  {
    if |words| == 1 {
      assert words[0] in words;
      WordsOfWord(words[0], ws);
    } else if |words| > 1 {
      var rest := Join(words[1..], ' ');
      assert Join(words, ' ') == words[0] + (" " + rest);
      WordsAppend(words[0], " " + rest, ws);
      assert words[0] in words;
      WordsOfWord(words[0], ws);
      WordsAppendAfter(" ", rest, ws);
      WordsOfBlank(" ", ws);
      assert forall w <- words[1..] :: w in words;
      WordsOfJoin(words[1..], ws);
      assert words == [words[0]] + words[1..];
    }
  }

  // ---------------------------------------------------------------------------
  // Stripping
  // ---------------------------------------------------------------------------

  /** `s.rstrip(cs)`: the longest prefix of `s` that does not end with a character of `cs`. */
  function RStrip(s: string, cs: set<char>): (r: string)
    ensures r <= s
    ensures forall i :: |r| <= i < |s| ==> s[i] in cs
    ensures r == [] || r[|r| - 1] !in cs
    decreases |s|
  {
    if s != [] && s[|s| - 1] in cs then RStrip(s[..|s| - 1], cs) else s
  }

  /** `s.lstrip(cs)`: the longest suffix of `s` that does not begin with a character of `cs`. */
  function LStrip(s: string, cs: set<char>): (r: string)
    ensures |r| <= |s| && r == s[|s| - |r|..]
    ensures forall i :: 0 <= i < |s| - |r| ==> s[i] in cs
    ensures r == [] || r[0] !in cs
    decreases |s|
  {
    if s != [] && s[0] in cs then LStrip(s[1..], cs) else s
  }

  /** `s[i..j]` is what remains of `s` after removing the characters of `cs` at both ends. */
  predicate Trimmed(s: string, i: int, j: int, cs: set<char>) {
    && 0 <= i <= j <= |s|
    && AllIn(s[..i], cs)
    && AllIn(s[j..], cs)
    && (i < j ==> s[i] !in cs && s[j - 1] !in cs)
  }

  /** `s.strip(cs)`: `s` without the characters of `cs` at either end. */
  function Strip(s: string, cs: set<char>): (r: string)
    ensures exists i, j :: Trimmed(s, i, j, cs) && r == s[i..j]
  {
    var l := LStrip(s, cs);
    var r := RStrip(l, cs);
    StripBounds(s, cs, l, r);
    r
  }

  /** Where the result of stripping sits in the original string. */
  lemma StripBounds(s: string, cs: set<char>, l: string, r: string)
    requires |l| <= |s| && l == s[|s| - |l|..]
    requires forall i :: 0 <= i < |s| - |l| ==> s[i] in cs
    requires l == [] || l[0] !in cs
    requires r <= l
    requires forall i :: |r| <= i < |l| ==> l[i] in cs
    requires r == [] || r[|r| - 1] !in cs
    ensures Trimmed(s, |s| - |l|, |s| - |l| + |r|, cs) && r == s[|s| - |l|..|s| - |l| + |r|]
  {
    var i := |s| - |l|;
    var j := i + |r|;
    assert r == s[i..j] by {
      assert l == s[i..];
      assert r == l[..|r|];
    }
    assert AllIn(s[j..], cs) by {
      assert forall k :: |r| <= k < |l| ==> l[k] in cs;
      assert s[j..] == l[|r|..];
    }
    assert AllIn(s[..i], cs) by {
      assert forall k :: 0 <= k < i ==> s[k] in cs;
    }
  }

  /** The three properties of `RStrip` pin its result down: no other string has them. */
  lemma RStripUnique(s: string, cs: set<char>, r: string)
    requires r <= s
    requires forall i :: |r| <= i < |s| ==> s[i] in cs
    requires r == [] || r[|r| - 1] !in cs
    ensures r == RStrip(s, cs)
  {
    var t := RStrip(s, cs);
    assert r == s[..|r|] && t == s[..|t|];
    assert |r| == |t|;
  }

  /** Stripping twice strips nothing more. */
  lemma RStripIdempotent(s: string, cs: set<char>)
    ensures RStrip(RStrip(s, cs), cs) == RStrip(s, cs)
  {
    var t := RStrip(s, cs);
    RStripUnique(t, cs, t);
  }

  // ---------------------------------------------------------------------------
  // Splitting on one separator character
  // ---------------------------------------------------------------------------

  /** Position of the first `c` in `s`, or `|s|` when there is none. */
  function Find(s: string, c: char): (i: nat)
    ensures i <= |s|
    ensures c !in s[..i]
    ensures i < |s| ==> s[i] == c
  {
    if s == [] then 0
    else if s[0] == c then 0
    else
      var j := Find(s[1..], c);
      assert s[..j + 1] == [s[0]] + s[1..][..j];
      1 + j
  }

  /** The first occurrence is determined by the string: any `k` with the properties of `Find` is it. */
  lemma FindUnique(s: string, c: char, k: nat)
    requires k <= |s| && c !in s[..k] && (k < |s| ==> s[k] == c)
    ensures Find(s, c) == k
  {
  }

  /** `c.join(parts)`. */
  function Join(parts: seq<string>, c: char): string
  {
    if |parts| == 0 then ""
    else if |parts| == 1 then parts[0]
    else parts[0] + [c] + Join(parts[1..], c)
  }

  /** `s.split(c)`: the pieces between occurrences of `c`; joining them with `c` gives `s` back. */
  function SplitOn(s: string, c: char): (parts: seq<string>)
    ensures |parts| > 0
    ensures forall p <- parts :: c !in p
    ensures Join(parts, c) == s
    decreases |s|
  {
    var i := Find(s, c);
    if i == |s| then
      assert s[..i] == s;
      [s]
    else
      var rest := SplitOn(s[i + 1..], c);
      assert Join([s[..i]] + rest, c) == s[..i] + [c] + Join(rest, c) by {
        assert ([s[..i]] + rest)[1..] == rest;
      }
      assert s == s[..i] + [c] + s[i + 1..];
      [s[..i]] + rest
  }

  /** A string without the separator is a single piece. */
  lemma SplitOnWhole(s: string, c: char)
    requires c !in s
    ensures SplitOn(s, c) == [s]
  {
    assert s[..|s|] == s;
    FindUnique(s, c, |s|);
  }

  /** A string with the separator splits into the text before it, then the split of the rest. */
  lemma SplitOnStep(s: string, c: char)
    requires Find(s, c) < |s|
    ensures SplitOn(s, c) == [s[..Find(s, c)]] + SplitOn(s[Find(s, c) + 1..], c)
  {
  }

  /** Splitting a join of separator-free pieces recovers the pieces. */
  lemma {:induction false} SplitOnJoin(parts: seq<string>, c: char)
    requires |parts| > 0
    requires forall p <- parts :: c !in p
    ensures SplitOn(Join(parts, c), c) == parts
    decreases |parts|
  {
    var s := Join(parts, c);
    if |parts| == 1 {
      assert parts[0] in parts;
      SplitOnWhole(s, c);
    } else {
      var p := parts[0];
      var rest := Join(parts[1..], c);
      assert s == p + [c] + rest;
      assert Find(s, c) == |p| by {
        assert p in parts;
        assert s[..|p|] == p;
        FindUnique(s, c, |p|);
      }
      SplitOnStep(s, c);
      assert s[..|p|] == p;
      assert s[|p| + 1..] == rest;
      assert forall q <- parts[1..] :: c !in q by {
        assert forall q <- parts[1..] :: q in parts;
      }
      SplitOnJoin(parts[1..], c);
      assert parts == [p] + parts[1..];
    }
  }

  /** A join ends with its last piece, preceded by the separator when there are several pieces. */
  lemma {:induction false} JoinEndsWithLast(parts: seq<string>, c: char)
    requires |parts| > 1
    ensures var s := Join(parts, c); var last := parts[|parts| - 1];
            |last| < |s| && s[|s| - |last|..] == last && s[|s| - |last| - 1] == c
    decreases |parts|
  {
    var s := Join(parts, c);
    var last := parts[|parts| - 1];
    var rest := Join(parts[1..], c);
    assert s == parts[0] + [c] + rest;
    if |parts| == 2 {
      assert rest == last;
    } else {
      JoinEndsWithLast(parts[1..], c);
      assert parts[1..][|parts[1..]| - 1] == last;
    }
  }

  /** A string that ends with the separator splits into pieces the last of which is empty. */
  lemma SplitOnTrailing(s: string, c: char)
    requires s != [] && s[|s| - 1] == c
    ensures var parts := SplitOn(s, c); |parts| > 1 && parts[|parts| - 1] == ""
  {
    var parts := SplitOn(s, c);
    if |parts| == 1 {
      assert false;
    } else {
      var last := parts[|parts| - 1];
      JoinEndsWithLast(parts, c);
      assert last in parts;
    }
  }

  /** `s.split(c)[0]`: everything before the first `c`. */
  function Before(s: string, c: char): (r: string)
    ensures r <= s
    ensures c !in r
    ensures |r| < |s| ==> s[|r|] == c
  {
    var parts := SplitOn(s, c);
    if |parts| == 1 then
      parts[0]
    else
      assert Join(parts, c) == parts[0] + [c] + Join(parts[1..], c);
      assert s[|parts[0]|] == c;
      parts[0]
  }

  /** `s.split(c)[0]` is the text up to the first `c`. */
  lemma BeforeIsFind(s: string, c: char)
    ensures Before(s, c) == s[..Find(s, c)]
  {
    var r := Before(s, c);
    FindUnique(s, c, |r|);
  }

  // ---------------------------------------------------------------------------
  // Replacing and case folding
  // ---------------------------------------------------------------------------

  /** `s.replace(c, '')`: every other character kept, in order. */
  function RemoveAll(s: string, c: char): (r: string)
    ensures c !in r
    ensures |r| <= |s|
    ensures forall x :: x != c ==> multiset(r)[x] == multiset(s)[x]
    decreases |s|
  {
    if s == [] then []
    else
      var rest := RemoveAll(s[1..], c);
      assert s == [s[0]] + s[1..];
      if s[0] == c then rest else [s[0]] + rest
  }

  /** Removing a character distributes over concatenation, so the kept characters stay in order. */
  lemma {:induction false} RemoveAllAppend(a: string, b: string, c: char)
    ensures RemoveAll(a + b, c) == RemoveAll(a, c) + RemoveAll(b, c)
    decreases |a|
  {
    if a != [] {
      assert (a + b)[1..] == a[1..] + b;
      RemoveAllAppend(a[1..], b, c);
    } else {
      assert a + b == b;
    }
  }

  /** A string without the character is left unchanged. */
  lemma {:induction false} RemoveAllAbsent(s: string, c: char)
    requires c !in s
    ensures RemoveAll(s, c) == s
    decreases |s|
  {
    if s != [] {
      assert c !in s[1..] by {
        assert forall x <- s[1..] :: x in s;
      }
      RemoveAllAbsent(s[1..], c);
      assert s == [s[0]] + s[1..];
    }
  }

  /** An ASCII upper-case letter mapped to its lower-case form; every other character unchanged. */
  function LowerChar(x: char): char
  {
    if 'A' <= x <= 'Z' then (x as int + 32) as char else x
  }

  /**
   `s.lower()` on the ASCII letters of `s`: no upper-case letter is left, each
   upper-case letter becomes its lower-case partner, and every other character
   stays where it was.
   */
  function Lower(s: string): (r: string)
    ensures |r| == |s|
    ensures forall i :: 0 <= i < |r| ==> !('A' <= r[i] <= 'Z')
    ensures forall i :: 0 <= i < |s| && 'A' <= s[i] <= 'Z' ==> r[i] as int == s[i] as int + 32
    ensures forall i :: 0 <= i < |s| && !('A' <= s[i] <= 'Z') ==> r[i] == s[i]
  {
    seq(|s|, i requires 0 <= i < |s| => LowerChar(s[i]))
  }

  /** Folding case twice folds nothing more. */
  lemma LowerIdempotent(s: string)
    ensures Lower(Lower(s)) == Lower(s)
  {
  }
}

=== FILE: trunk.dfy ===
/**
 The `pn_trunk` module: the parameters of `trunk-create`, `trunk-delete` and
 `trunk-modify`, the Ansible checks run on them, the command line built from
 them, and the report made from the tool's two output streams.
 */
module Trunk {
  import opened Wrappers
  import opened PyText
  import opened CliArgs

  /** The module parameters after Ansible's parsing; `None` is a parameter that was not supplied. */
  datatype Params = Params(
    username: string,
    password: string,
    switch: Option<string>,
    command: string,
    name: Option<string>,
    ports: Option<string>,
    speed: Option<string>,
    egressRateLimit: Option<string>,
    jumbo: TriBool,
    lacpMode: Option<string>,
    lacpPriority: Option<int>,
    lacpTimeout: Option<string>,
    lacpFallback: Option<string>,
    lacpFallbackTimeout: Option<string>,
    edgeSwitch: TriBool,
    pause: TriBool,
    description: Option<string>,
    loopback: TriBool,
    mirrorReceive: TriBool,
    unknownUcastLevel: Option<string>,
    unknownMcastLevel: Option<string>,
    broadcastLevel: Option<string>,
    portMacaddr: Option<string>,
    loopvlans: Option<string>,
    routing: TriBool,
    host: TriBool,
    quiet: bool)

  // ---------------------------------------------------------------------------
  // Validation: `required=True`, `choices` and `required_if`
  // ---------------------------------------------------------------------------

  const Commands: set<string> := {"trunk-create", "trunk-delete", "trunk-modify"}
  const Speeds: set<string> := {"disable", "10m", "100m", "1g", "2.5g", "10g", "40g"}
  const LacpModes: set<string> := {"off", "passive", "active"}
  const LacpFallbacks: set<string> := {"bundle", "individual"}

  /** The parameters whose value lies outside their `choices`. */
  function BadChoices(p: Params): set<string>
  {
    (if p.command in Commands then {} else {"pn_command"})
    + (if Chosen(p.speed, Speeds) then {} else {"pn_speed"})
    + (if Chosen(p.lacpMode, LacpModes) then {} else {"pn_lacp_mode"})
    + (if Chosen(p.lacpFallback, LacpFallbacks) then {} else {"pn_lacp_fallback"})
  }

  /** The `required_if` table: what each command needs besides the command itself. */
  function RequiredFor(command: string): seq<string>
  {
    if command == "trunk-create" then ["pn_name", "pn_ports"]
    else if command == "trunk-delete" then ["pn_name"]
    else if command == "trunk-modify" then ["pn_name"]
    else []
  }

  /** Whether a parameter named in the `required_if` table was supplied. */
  predicate Supplied(p: Params, param: string) {
    if param == "pn_name" then p.name.Some?
    else if param == "pn_ports" then p.ports.Some?
    else true
  }

  /** Ansible's checks in its own order: required parameters, then choices, then `required_if`. */
  function Validate(p: Params): Outcome<ValidationError>
  {
    if p.name.None? then Fail(MissingParams(["pn_name"]))
    else if BadChoices(p) != {} then Fail(InvalidChoices(BadChoices(p)))
    else
      var missing := Missing(RequiredFor(p.command), param => Supplied(p, param));
      if missing != [] then Fail(MissingParams(missing)) else Pass
  }

  /** The enumerated parameters hold one of their choices (the LACP timeout has none in code). */
  predicate ChoicesHold(p: Params) {
    && p.command in Commands
    && (p.speed.Some? ==> p.speed.value in Speeds)
    && (p.lacpMode.Some? ==> p.lacpMode.value in LacpModes)
    && (p.lacpFallback.Some? ==> p.lacpFallback.value in LacpFallbacks)
  }

  /** The choice check finds nothing exactly when every enumerated parameter holds one of its choices. */
  lemma BadChoicesEmpty(p: Params)
    ensures BadChoices(p) == {} <==> ChoicesHold(p)
  {
    if p.command !in Commands {
      assert "pn_command" in BadChoices(p);
    }
    if !Chosen(p.speed, Speeds) {
      assert "pn_speed" in BadChoices(p);
    }
    if !Chosen(p.lacpMode, LacpModes) {
      assert "pn_lacp_mode" in BadChoices(p);
    }
    if !Chosen(p.lacpFallback, LacpFallbacks) {
      assert "pn_lacp_fallback" in BadChoices(p);
    }
  }

  /** The `required_if` check for a request that names the trunk: only a create can miss something, the ports. */
  lemma MissingForCommand(p: Params)
    requires p.name.Some?
    ensures var missing := Missing(RequiredFor(p.command), param => Supplied(p, param));
            missing == if p.command == "trunk-create" && p.ports.None? then ["pn_ports"] else []
  {
    var supplied := param => Supplied(p, param);
    var missing := Missing(RequiredFor(p.command), supplied);
    if p.command == "trunk-create" {
      assert Missing(["pn_ports"], supplied) == (if p.ports.None? then ["pn_ports"] else []) by {
        assert ["pn_ports"][1..] == [];
      }
      assert ["pn_name", "pn_ports"][1..] == ["pn_ports"];
    } else if p.command == "trunk-delete" || p.command == "trunk-modify" {
      assert ["pn_name"][1..] == [];
    }
  }

  /** A request passes exactly when it names the trunk, its choices hold, and a create also gives ports. */
  lemma ValidateAccepts(p: Params)
    ensures Validate(p).Pass? <==>
              p.name.Some? && ChoicesHold(p) && (p.command == "trunk-create" ==> p.ports.Some?)
  {
    BadChoicesEmpty(p);
    if p.name.Some? {
      MissingForCommand(p);
    }
  }

  /** `trunk-create` without ports is refused, naming `pn_ports`; delete and modify need only the name. */
  lemma RequiredFields(p: Params)
    requires p.name.Some? && ChoicesHold(p)
    ensures p.command == "trunk-create" && p.ports.None? ==> Validate(p) == Fail(MissingParams(["pn_ports"]))
    ensures p.command != "trunk-create" ==> Validate(p) == Pass
  {
    BadChoicesEmpty(p);
    MissingForCommand(p);
  }

  // ---------------------------------------------------------------------------
  // The field table
  // ---------------------------------------------------------------------------

  /** The optional parameters that follow `name <name>`, in the order they are emitted. */
  datatype Field =
    | Ports | Speed | EgressRateLimit | Jumbo | LacpMode | LacpPriority | LacpTimeout
    | LacpFallback | LacpFallbackTimeout | EdgeSwitch | Pause | Description | Loopback
    | MirrorReceive | UnknownUcastLevel | UnknownMcastLevel | BroadcastLevel | PortMacAddress
    | Loopvlans | Routing | Host

  const Fields: seq<Field> :=
    [Ports, Speed, EgressRateLimit, Jumbo, LacpMode, LacpPriority, LacpTimeout,
     LacpFallback, LacpFallbackTimeout, EdgeSwitch, Pause, Description, Loopback,
     MirrorReceive, UnknownUcastLevel, UnknownMcastLevel, BroadcastLevel, PortMacAddress,
     Loopvlans, Routing, Host]

  /** The position of a field in the emission order. */
  function Rank(f: Field): int
  {
    match f
    case Ports => 0
    case Speed => 1
    case EgressRateLimit => 2
    case Jumbo => 3
    case LacpMode => 4
    case LacpPriority => 5
    case LacpTimeout => 6
    case LacpFallback => 7
    case LacpFallbackTimeout => 8
    case EdgeSwitch => 9
    case Pause => 10
    case Description => 11
    case Loopback => 12
    case MirrorReceive => 13
    case UnknownUcastLevel => 14
    case UnknownMcastLevel => 15
    case BroadcastLevel => 16
    case PortMacAddress => 17
    case Loopvlans => 18
    case Routing => 19
    case Host => 20
  }

  /** `Fields` lists every field once, at the position its rank gives. */
  lemma FieldsRanked()
    ensures forall i :: 0 <= i < |Fields| ==> Rank(Fields[i]) == i
  {
  }

  /** Every field is listed, at the position its rank gives. */
  lemma InFields(f: Field)
    ensures 0 <= Rank(f) < |Fields| && Fields[Rank(f)] == f
    ensures f in Fields
  {
  }

  /** How each field is rendered. A non-zero LACP priority stops the build before rendering. */
  function FieldSetting(p: Params, f: Field): Setting
  {
    match f
    case Ports => Pair("ports", p.ports)
    case Speed => Pair("speed", p.speed)
    case EgressRateLimit => Pair("egress-rate-limit", p.egressRateLimit)
    case Jumbo => Toggle("jumbo", "no-jumbo", p.jumbo)
    case LacpMode => Pair("lacp-mode", p.lacpMode)
    case LacpPriority => Dropped
    case LacpTimeout => Pair("lacp-timeout", p.lacpTimeout)
    case LacpFallback => Pair("lacp-fallback", p.lacpFallback)
    case LacpFallbackTimeout => Pair("lacp-fallback-timeout", p.lacpFallbackTimeout)
    case EdgeSwitch => Toggle("edge-switch", "no-edge-switch", p.edgeSwitch)
    case Pause => Toggle("pause", "no-pause", p.pause)
    case Description => Pair("description", p.description)
    case Loopback => Toggle("loopback", "no-loopback", p.loopback)
    case MirrorReceive => Toggle("mirror-receive-only", "no-mirror-receive-only", p.mirrorReceive)
    case UnknownUcastLevel => Pair("unknown-ucast-level", p.unknownUcastLevel)
    case UnknownMcastLevel => Pair("unknown-mcast-level", p.unknownMcastLevel)
    case BroadcastLevel => Pair("broadcast-level", p.broadcastLevel)
    case PortMacAddress => Pair("port-mac-address", p.portMacaddr)
    case Loopvlans => Pair("loopvlans", p.loopvlans)
    case Routing => Toggle("routing", "no-routing", p.routing)
    case Host => Toggle("host-enable", "host-disable", p.host)
  }

  /** The tokens each field of a request renders to. */
  function Renderer(p: Params): Field -> Option<seq<string>>
  {
    f => Render(FieldSetting(p, f))
  }

  /** The optional clauses of a request, in emission order. */
  function Clauses(p: Params): seq<Clause<Field>>
  {
    Collect(Fields, Renderer(p))
  }

  /** The switch clause: `switch-local` for the sentinel `local`, else `switch <value>`, nothing when falsy. */
  function SwitchTokens(switch: Option<string>): seq<string>
  {
    if !Truthy(switch) then []
    else if switch.value == "local" then ["switch-local"]
    else ["switch", switch.value]
  }

  /** Everything before the optional clauses. */
  function HeadTokens(p: Params): seq<string>
    requires p.name.Some?
  {
    ["/usr/bin/cli"] + (if p.quiet then ["--quiet"] else []) + ["--user", p.username + ":" + p.password]
    + SwitchTokens(p.switch) + [p.command, "name", p.name.value]
  }

  // ---------------------------------------------------------------------------
  // The command string, exactly as the module concatenates it
  // ---------------------------------------------------------------------------

  /** The source's `' <on> '` for `True` and `' <off> '` for `False`. */
  function FlagText(on: string, off: string, t: TriBool): string
  {
    match t
    case Unset => ""
    case Yes => " " + on + " "
    case No => " " + off + " "
  }

  /** Line 268: `' --quiet '` when asked for. */
  function QuietText(quiet: bool): string
  {
    if quiet then " " + "--quiet" + " " else ""
  }

  /** Line 273: the switch clause, with the sentinel `local` becoming `switch-local`. */
  function SwitchText(switch: Option<string>): string
  {
    if !Truthy(switch) then ""
    else if switch.value == "local" then " " + "switch-local" + " "
    else " " + "switch" + " " + switch.value
  }

  /** Line 275: `' %s name %s '`. */
  function CommandText(command: string, name: string): string
  {
    (" " + command) + ((" " + "name" + " " + name) + " ")
  }

  /** The string up to and including the trunk's name, appended piece by piece. */
  function HeadText(p: Params): string
    requires p.name.Some?
  {
    "/usr/bin/cli" + QuietText(p.quiet) + UserText(p.username, p.password)
    + SwitchText(p.switch) + CommandText(p.command, p.name.value)
  }

  /** Each field's piece of the string, as a function of the field. */
  function Texts(p: Params): Field -> string
  {
    f => FieldText(p, f)
  }

  function FieldText(p: Params, f: Field): string
  {
    match f
    case Ports => ArgText("ports", p.ports)
    case Speed => ArgText("speed", p.speed)
    case EgressRateLimit => ArgText("egress-rate-limit", p.egressRateLimit)
    case Jumbo => FlagText("jumbo", "no-jumbo", p.jumbo)
    case LacpMode => ArgText("lacp-mode", p.lacpMode)
    case LacpPriority => ""
    case LacpTimeout => ArgText("lacp-timeout", p.lacpTimeout)
    case LacpFallback => ArgText("lacp-fallback", p.lacpFallback)
    case LacpFallbackTimeout => ArgText("lacp-fallback-timeout", p.lacpFallbackTimeout)
    case EdgeSwitch => FlagText("edge-switch", "no-edge-switch", p.edgeSwitch)
    case Pause => FlagText("pause", "no-pause", p.pause)
    case Description => ArgText("description", p.description)
    case Loopback => FlagText("loopback", "no-loopback", p.loopback)
    case MirrorReceive => FlagText("mirror-receive-only", "no-mirror-receive-only", p.mirrorReceive)
    case UnknownUcastLevel => ArgText("unknown-ucast-level", p.unknownUcastLevel)
    case UnknownMcastLevel => ArgText("unknown-mcast-level", p.unknownMcastLevel)
    case BroadcastLevel => ArgText("broadcast-level", p.broadcastLevel)
    case PortMacAddress => ArgText("port-mac-address", p.portMacaddr)
    case Loopvlans => ArgText("loopvlans", p.loopvlans)
    case Routing => FlagText("routing", "no-routing", p.routing)
    case Host => FlagText("host-enable", "host-disable", p.host)
  }

  // ---------------------------------------------------------------------------
  // Building the command
  // ---------------------------------------------------------------------------

  /** `' lacp-priority ' + lacp_priority` adds an `int` to a `str`, which Python refuses. */
  datatype BuildError = PriorityNotText(priority: int)

  /** The reported string and the field-table argument vector of a request that passed validation. */
  function Build(p: Params): (r: Result<Command, BuildError>)
    requires p.name.Some?
    ensures r.Failure? <==> p.lacpPriority.Some? && p.lacpPriority.value != 0
    ensures r.Success? ==> |HeadTokens(p)| <= |r.value.argv| && r.value.argv[..|HeadTokens(p)|] == HeadTokens(p)
  {
    if p.lacpPriority.Some? && p.lacpPriority.value != 0 then
      Failure(PriorityNotText(p.lacpPriority.value))
    else
      var argv := HeadTokens(p) + Flatten(Clauses(p));
      assert argv[..|HeadTokens(p)|] == HeadTokens(p);
      Success(Command(HeadText(p) + Concat(Fields, Texts(p)), argv))
  }

  /** The table vector is the head followed by the clauses. */
  lemma BuildArgv(p: Params)
    requires p.name.Some? && Build(p).Success?
    ensures Build(p).value.argv == HeadTokens(p) + Flatten(Clauses(p))
  {
  }

  /** The head begins `/usr/bin/cli [--quiet] --user <username>:<password>`, `--quiet` exactly when asked. */
  lemma HeadShape(p: Params)
    requires p.name.Some?
    ensures var head := HeadTokens(p);
            var k := if p.quiet then 2 else 1;
            && |head| >= k + 2
            && head[0] == "/usr/bin/cli"
            && (head[1] == "--quiet" <==> p.quiet)
            && head[k] == "--user" && head[k + 1] == p.username + ":" + p.password
  {
  }

  /** The table vector begins `/usr/bin/cli [--quiet] --user <username>:<password>`. */
  lemma PrefixShape(p: Params)
    requires p.name.Some? && Build(p).Success?
    ensures var argv := Build(p).value.argv;
            var k := if p.quiet then 2 else 1;
            && |argv| >= k + 2
            && argv[0] == "/usr/bin/cli"
            && (argv[1] == "--quiet" <==> p.quiet)
            && argv[k] == "--user" && argv[k + 1] == p.username + ":" + p.password
  {
    HeadShape(p);
    AgreesWithPrefix(HeadTokens(p), Build(p).value.argv);
  }

  /** The clauses follow the fixed field order, so no field appears twice. */
  lemma ClausesInOrder(p: Params)
    ensures InOrder(Clauses(p), Rank)
    ensures forall i, j :: 0 <= i < |Clauses(p)| && 0 <= j < |Clauses(p)| ==>
                             (Clauses(p)[i].field == Clauses(p)[j].field ==> i == j)
  {
    FieldsRanked();
    CollectOrdered(Fields, Renderer(p), Rank);
    InOrderDistinct(Clauses(p), Rank);
  }

  /** Each field has a clause exactly when its setting renders, holding those tokens. */
  lemma ClauseOfField(p: Params, f: Field)
    ensures Lookup(Clauses(p), f) == Render(FieldSetting(p, f))
  {
    InFields(f);
    CollectLookup(Fields, Renderer(p), f);
  }

  /** A tri-state parameter rendered as `on` for true, `off` for false, nothing when unset. */
  predicate ToggleRendered(p: Params, f: Field, on: string, off: string, t: TriBool) {
    && (t == Yes ==> Lookup(Clauses(p), f) == Some([on]))
    && (t == No ==> Lookup(Clauses(p), f) == Some([off]))
    && (t == Unset ==> Lookup(Clauses(p), f) == None)
  }

  /** A string parameter rendered as `<name> <value>` when truthy and not at all otherwise. */
  predicate PairRendered(p: Params, f: Field, name: string, v: Option<string>) {
    Lookup(Clauses(p), f) == if Truthy(v) then Some([name, v.value]) else None
  }

  /**
   Every tri-state field of the table (jumbo, edge-switch, pause, loopback,
   mirror-receive-only, routing, host-enable/host-disable) renders its positive
   token for true, its negative token for false, and nothing when unset.
   */
  lemma TogglesRender(p: Params)
    ensures forall f | FieldSetting(p, f).Toggle? ::
              var s := FieldSetting(p, f); ToggleRendered(p, f, s.on, s.off, s.state)
  {
    forall f | FieldSetting(p, f).Toggle?
      ensures var s := FieldSetting(p, f); ToggleRendered(p, f, s.on, s.off, s.state)
    {
      ClauseOfField(p, f);
      ToggleRenders(FieldSetting(p, f), Lookup(Clauses(p), f));
    }
  }

  /** Every string and enum field renders `<cli-name> <value>` exactly when its value is non-empty. */
  lemma PairsRender(p: Params)
    ensures forall f | FieldSetting(p, f).Pair? ::
              var s := FieldSetting(p, f); PairRendered(p, f, s.name, s.value)
  {
    forall f | FieldSetting(p, f).Pair?
      ensures var s := FieldSetting(p, f); PairRendered(p, f, s.name, s.value)
    {
      ClauseOfField(p, f);
    }
  }

  /** A dropped field (the LACP priority) never yields a clause. */
  lemma DroppedNeverRendered(p: Params)
    ensures forall f | FieldSetting(p, f).Dropped? :: Lookup(Clauses(p), f) == None
  {
    forall f | FieldSetting(p, f).Dropped? ensures Lookup(Clauses(p), f) == None {
      ClauseOfField(p, f);
    }
  }

  // ---------------------------------------------------------------------------
  // Splitting the reported string gives the table vector, for plain values
  // ---------------------------------------------------------------------------

  /** The string value a field carries, if it carries one. */
  function FieldValue(p: Params, f: Field): Option<string>
  {
    match FieldSetting(p, f)
    case Pair(_, v) => v
    case Glued(_, v, _) => v
    case _ => None
  }

  /** Every value that reaches the command line is a plain shell word (the name must also be non-empty). */
  predicate PlainParams(p: Params) {
    && Plain(p.username + ":" + p.password)
    && Plain(p.command)
    && p.name.Some? && Plain(p.name.value)
    && PlainValue(p.switch)
    && forall f :: PlainValue(FieldValue(p, f))
  }

  lemma WordsOfFlagText(on: string, off: string, t: TriBool)
    requires Plain(on) && Plain(off)
    ensures var s := FlagText(on, off, t);
            && (s == [] || s[0] in ShellSpace)
            && Words(s, ShellSpace) == Render(Toggle(on, off, t)).GetOr([])
  {
    WordsOfPadded(on);
    WordsOfPadded(off);
  }

  /** The text the source appends for a setting of each kind. */
  function SettingText(s: Setting): string
  {
    match s
    case Pair(name, v) => ArgText(name, v)
    case Toggle(on, off, t) => FlagText(on, off, t)
    case _ => ""
  }

  /** Each field's piece of the string is the text of its kind of setting. */
  lemma FieldTextOfSetting(p: Params, f: Field)
    ensures FieldText(p, f) == SettingText(FieldSetting(p, f))
    ensures FieldSetting(p, f).Pair? || FieldSetting(p, f).Toggle? || FieldSetting(p, f).Dropped?
  {
  }

  /** Every option name in the table is a plain shell word. */
  lemma TableNamesPlain(p: Params, f: Field)
    ensures FieldSetting(p, f).Pair? ==> Plain(FieldSetting(p, f).name)
    ensures FieldSetting(p, f).Toggle? ==> Plain(FieldSetting(p, f).on) && Plain(FieldSetting(p, f).off)
  {
    PairNamesPlain();
    ToggleNamesPlain();
  }

  lemma PortSpeedEgressNamesPlain()
    ensures Plain("ports") && Plain("speed") && Plain("egress-rate-limit")
  {
  }

  lemma LacpNamesPlain()
    ensures Plain("lacp-mode") && Plain("lacp-timeout") && Plain("lacp-fallback")
  {
  }

  lemma FallbackTimeoutDescriptionNamesPlain()
    ensures Plain("lacp-fallback-timeout") && Plain("description")
  {
  }

  lemma UnknownLevelNamesPlain()
    ensures Plain("unknown-ucast-level") && Plain("unknown-mcast-level")
  {
  }

  lemma BroadcastMacVlanNamesPlain()
    ensures Plain("broadcast-level") && Plain("port-mac-address") && Plain("loopvlans")
  {
  }

  lemma PairNamesPlain()
    ensures
      && Plain("ports") && Plain("speed") && Plain("egress-rate-limit") && Plain("lacp-mode")
      && Plain("lacp-timeout") && Plain("lacp-fallback") && Plain("lacp-fallback-timeout")
      && Plain("description") && Plain("unknown-ucast-level") && Plain("unknown-mcast-level")
      && Plain("broadcast-level") && Plain("port-mac-address") && Plain("loopvlans")
  {
    PortSpeedEgressNamesPlain();
    LacpNamesPlain();
    FallbackTimeoutDescriptionNamesPlain();
    UnknownLevelNamesPlain();
    BroadcastMacVlanNamesPlain();
  }

  lemma JumboEdgeNamesPlain()
    ensures Plain("jumbo") && Plain("no-jumbo") && Plain("edge-switch") && Plain("no-edge-switch")
  {
  }

  lemma PauseLoopbackNamesPlain()
    ensures Plain("pause") && Plain("no-pause") && Plain("loopback") && Plain("no-loopback")
  {
  }

  lemma MirrorNamesPlain()
    ensures Plain("mirror-receive-only") && Plain("no-mirror-receive-only")
  {
  }

  lemma RoutingHostNamesPlain()
    ensures Plain("routing") && Plain("no-routing") && Plain("host-enable") && Plain("host-disable")
  {
  }

  lemma ToggleNamesPlain()
    ensures
      && Plain("jumbo") && Plain("no-jumbo") && Plain("edge-switch") && Plain("no-edge-switch")
      && Plain("pause") && Plain("no-pause") && Plain("loopback") && Plain("no-loopback")
      && Plain("mirror-receive-only") && Plain("no-mirror-receive-only") && Plain("routing")
      && Plain("no-routing") && Plain("host-enable") && Plain("host-disable")
  {
    JumboEdgeNamesPlain();
    PauseLoopbackNamesPlain();
    MirrorNamesPlain();
    RoutingHostNamesPlain();
  }

  lemma SwitchLocalPlain()
    ensures Plain("switch-local")
  {
  }

  /** Each field's piece of the string splits into exactly the tokens the field table gives it. */
  lemma WordsOfField(p: Params, f: Field)
    requires PlainValue(FieldValue(p, f))
    ensures FieldText(p, f) == [] || FieldText(p, f)[0] in ShellSpace
    ensures Words(FieldText(p, f), ShellSpace) == Render(FieldSetting(p, f)).GetOr([])
  {
    FieldTextOfSetting(p, f);
    TableNamesPlain(p, f);
    WordsOfSetting(FieldSetting(p, f));
  }

  /** The text of a setting with plain names and a plain value splits into the tokens it renders. */
  lemma WordsOfSetting(s: Setting)
    requires s.Pair? ==> Plain(s.name) && PlainValue(s.value)
    requires s.Toggle? ==> Plain(s.on) && Plain(s.off)
    ensures SettingText(s) == [] || SettingText(s)[0] in ShellSpace
    ensures !s.Glued? ==> Words(SettingText(s), ShellSpace) == Render(s).GetOr([])
  {
    match s
    case Pair(name, v) => WordsOfArgText(name, v);
    case Toggle(on, off, t) => WordsOfFlagText(on, off, t);
    case _ =>
  }

  lemma WordsOfSwitch(switch: Option<string>)
    requires PlainValue(switch)
    ensures SwitchText(switch) == [] || SwitchText(switch)[0] in ShellSpace
    ensures Words(SwitchText(switch), ShellSpace) == SwitchTokens(switch)
  {
    if Truthy(switch) && switch.value != "local" {
      FixedWordsPlain();
      WordsOfPair("switch", switch.value);
    } else if Truthy(switch) {
      SwitchLocalPlain();
      WordsOfPadded("switch-local");
    }
  }

  lemma WordsOfCommand(command: string, name: string)
    requires Plain(command) && Plain(name)
    ensures Words(CommandText(command, name), ShellSpace) == [command, "name", name]
  {
    WordsAppend(" " + command, (" " + "name" + " " + name) + " ", ShellSpace);
    WordsOfPadded(command);
    WordsAppend(" " + "name" + " " + name, " ", ShellSpace);
    FixedWordsPlain();
    WordsOfPair("name", name);
    WordsOfBlank(" ", ShellSpace);
  }

  /** `/usr/bin/cli`, the optional `--quiet` and the credentials split into their tokens. */
  lemma WordsOfStart(quiet: bool, username: string, password: string)
    requires Plain(username + ":" + password)
    ensures Words("/usr/bin/cli" + QuietText(quiet) + UserText(username, password), ShellSpace)
            == ["/usr/bin/cli"] + (if quiet then ["--quiet"] else []) + ["--user", username + ":" + password]
  {
    var cli := "/usr/bin/cli";
    var q := QuietText(quiet);
    var user := UserText(username, password);
    FixedWordsPlain();
    assert user[0] == ' ';
    WordsAppend(cli + q, user, ShellSpace);
    WordsAppend(cli, q, ShellSpace);
    WordsOfPlain(cli);
    if quiet {
      WordsOfPadded("--quiet");
    }
    WordsOfUser(username, password);
  }

  /** The part of the string before the optional clauses splits into the head tokens. */
  lemma WordsOfHead(p: Params)
    requires p.name.Some? && Plain(p.username + ":" + p.password) && Plain(p.command) && Plain(p.name.value)
    requires PlainValue(p.switch)
    ensures Words(HeadText(p), ShellSpace) == HeadTokens(p)
  {
    var start := "/usr/bin/cli" + QuietText(p.quiet) + UserText(p.username, p.password);
    var sw := SwitchText(p.switch);
    var cmd := CommandText(p.command, p.name.value);
    assert cmd[0] == ' ';
    WordsAppend(start + sw, cmd, ShellSpace);
    WordsOfSwitch(p.switch);
    WordsAppend(start, sw, ShellSpace);
    WordsOfStart(p.quiet, p.username, p.password);
    WordsOfCommand(p.command, p.name.value);
  }

  /** The field pieces, concatenated, split into the clause tokens in table order. */
  lemma FieldsSplit(p: Params)
    requires PlainParams(p)
    ensures Concat(Fields, Texts(p)) == [] || Concat(Fields, Texts(p))[0] in ShellSpace
    ensures Words(Concat(Fields, Texts(p)), ShellSpace) == Flatten(Clauses(p))
  {
    var text := Texts(p);
    var render := Renderer(p);
    forall i | 0 <= i < |Fields|
      ensures text(Fields[i]) == [] || text(Fields[i])[0] in ShellSpace
      ensures Words(text(Fields[i]), ShellSpace) == render(Fields[i]).GetOr([])
    {
      assert PlainValue(FieldValue(p, Fields[i]));
      WordsOfField(p, Fields[i]);
    }
    WordsOfConcat(Fields, text, render, ShellSpace);
    ConcatLeads(Fields, text, ShellSpace);
  }

  /** Splitting the reported string on shell whitespace yields the argument vector, for plain values. */
  lemma TextSplitsToArgv(p: Params)
    requires PlainParams(p) && Build(p).Success?
    ensures Words(Build(p).value.text, ShellSpace) == Build(p).value.argv
  {
    FieldsSplit(p);
    WordsAppend(HeadText(p), Concat(Fields, Texts(p)), ShellSpace);
    WordsOfHead(p);
  }

  // ---------------------------------------------------------------------------
  // Reporting and the whole run
  // ---------------------------------------------------------------------------

  /** The module's JSON result: `stdout` on success, `stderr` on failure. */
  datatype Report = Report(command: string, stdout: Option<string>, stderr: Option<string>, changed: bool)

  /** Success is decided by the raw stderr being empty; the reported stream loses trailing CR/LF. */
  function MakeReport(command: string, out: ToolOutput): (r: Report)
    ensures r.command == command
    ensures r.changed <==> out.stderr == ""
    ensures r.changed ==> r.stdout == Some(TrimEol(out.stdout)) && r.stderr == None
    ensures !r.changed ==> r.stderr == Some(TrimEol(out.stderr)) && r.stdout == None
  {
    if out.stderr != "" then Report(command, None, Some(TrimEol(out.stderr)), false)
    else Report(command, Some(TrimEol(out.stdout)), None, true)
  }

  /** Why a run produced no report. */
  datatype RunError = Rejected(reason: ValidationError) | Unbuildable(error: BuildError)

  /** Validate, build, run the split of the string (the tool is a parameter), report. */
  function Run(p: Params, tool: seq<string> -> ToolOutput): Result<Report, RunError>
  {
    match Validate(p)
    case Fail(e) => Failure(Rejected(e))
    case Pass =>
      match Build(p)
      case Failure(e) => Failure(Unbuildable(e))
      case Success(c) => Success(MakeReport(c.text, tool(Argv(c.text))))
  }

  /** A refused request never reaches the tool: its outcome does not depend on what the tool would do. */
  lemma RejectedBeforeRunning(p: Params, tool1: seq<string> -> ToolOutput, tool2: seq<string> -> ToolOutput)
    requires Validate(p).Fail?
    ensures Run(p, tool1) == Run(p, tool2) == Failure(Rejected(Validate(p).error))
  {
  }

  /**
   A completed run reports the built string and succeeds exactly when the
   tool, given the split of that string, wrote no stderr.
   */
  lemma RunOutcome(p: Params, tool: seq<string> -> ToolOutput)
    requires Run(p, tool).Success?
    ensures p.name.Some? && Build(p).Success?
    ensures Run(p, tool).value.command == Build(p).value.text
    ensures Run(p, tool).value.changed <==> tool(Argv(Build(p).value.text)).stderr == ""
  {
  }

  /** With plain values the tool runs exactly the field-table vector. */
  lemma PlainRunOutcome(p: Params, tool: seq<string> -> ToolOutput)
    requires PlainParams(p) && Run(p, tool).Success?
    ensures Run(p, tool).value.changed <==> tool(Build(p).value.argv).stderr == ""
  {
    RunOutcome(p, tool);
    TextSplitsToArgv(p);
  }

  // ---------------------------------------------------------------------------
  // The documented example
  // ---------------------------------------------------------------------------

  /** A request with only the given command, name and ports set. */
  function Minimal(username: string, password: string, command: string, name: string, ports: Option<string>): Params
  {
    Params(username, password, None, command, Some(name), ports, None, None, Unset, None, None, None,
           None, None, Unset, Unset, None, Unset, Unset, None, None, None, None, None, Unset, Unset, true)
  }

  /** A request that sets nothing but its ports has the ports clause alone, if any. */
  lemma MinimalClauses(username: string, password: string, command: string, name: string, ports: Option<string>)
    ensures Clauses(Minimal(username, password, command, name, ports))
            == if Truthy(ports) then [Clause(Ports, ["ports", ports.value])] else []
  {
    var p := Minimal(username, password, command, name, ports);
    var render := Renderer(p);
    FieldsRanked();
    forall f | f in Fields[1..] ensures render(f) == None {
      var k :| 0 <= k < |Fields[1..]| && Fields[1..][k] == f;
      assert Rank(f) == k + 1;
      MinimalRendersPortsOnly(username, password, command, name, ports, f);
    }
    CollectNone(Fields[1..], render);
    CollectStep(Fields, render);
    assert Fields[0] == Ports;
    MinimalRendersPortsOnly(username, password, command, name, ports, Ports);
  }

  lemma MinimalRendersPortsOnly(username: string, password: string, command: string, name: string,
                                ports: Option<string>, f: Field)
    ensures Renderer(Minimal(username, password, command, name, ports))(f)
            == if f == Ports && Truthy(ports) then Some(["ports", ports.value]) else None
  {
  }

  /**
   The documented create (`pn_command: trunk-create`, a name and ports, nothing
   else, quiet by default) passes validation, and its table vector is exactly
   `/usr/bin/cli --quiet --user <user>:<password> trunk-create name <name> ports <ports>`.
   */
  lemma CreateExample(username: string, password: string, name: string, ports: string)
    requires ports != ""
    ensures var p := Minimal(username, password, "trunk-create", name, Some(ports));
            && Validate(p) == Pass
            && Build(p).Success?
            && Build(p).value.argv ==
               ["/usr/bin/cli", "--quiet", "--user", username + ":" + password, "trunk-create", "name", name]
               + ["ports", ports]
  {
    var p := Minimal(username, password, "trunk-create", name, Some(ports));
    MinimalCreateValid(username, password, name, ports);
    MinimalArgv(username, password, "trunk-create", name, ports);
    QuietHead(p);
  }

  /**
   With plain credentials, name and ports, the documented create's string
   splits into that same vector: the tool runs exactly those tokens.
   */
  lemma CreateExampleRuns(username: string, password: string, name: string, ports: string)
    requires Plain(username + ":" + password) && Plain(name) && Plain(ports)
    ensures var p := Minimal(username, password, "trunk-create", name, Some(ports));
            && Build(p).Success?
            && Argv(Build(p).value.text) ==
               ["/usr/bin/cli", "--quiet", "--user", username + ":" + password, "trunk-create", "name", name]
               + ["ports", ports]
  {
    var p := Minimal(username, password, "trunk-create", name, Some(ports));
    CreateExample(username, password, name, ports);
    MinimalPlain(username, password, name, ports);
    TextSplitsToArgv(p);
  }

  lemma MinimalPlain(username: string, password: string, name: string, ports: string)
    requires Plain(username + ":" + password) && Plain(name) && Plain(ports)
    ensures PlainParams(Minimal(username, password, "trunk-create", name, Some(ports)))
  {
    var p := Minimal(username, password, "trunk-create", name, Some(ports));
    assert Plain("trunk-create");
    forall f: Field ensures PlainValue(FieldValue(p, f)) {
    }
  }

  lemma MinimalCreateValid(username: string, password: string, name: string, ports: string)
    requires ports != ""
    ensures Validate(Minimal(username, password, "trunk-create", name, Some(ports))) == Pass
  {
    ValidateAccepts(Minimal(username, password, "trunk-create", name, Some(ports)));
  }

  /** A request with only ports set has its head followed by `ports <ports>` as its table vector. */
  lemma MinimalArgv(username: string, password: string, command: string, name: string, ports: string)
    requires ports != ""
    ensures var p := Minimal(username, password, command, name, Some(ports));
            Build(p).Success? && Build(p).value.argv == HeadTokens(p) + ["ports", ports]
  {
    var p := Minimal(username, password, command, name, Some(ports));
    MinimalClauses(username, password, command, name, Some(ports));
    BuildArgv(p);
    FlattenOne(Clause(Ports, ["ports", ports]));
  }

  /** Without a switch, a quiet request's head is the seven fixed-position tokens. */
  lemma QuietHead(p: Params)
    requires p.name.Some? && p.quiet && !Truthy(p.switch)
    ensures HeadTokens(p) == ["/usr/bin/cli", "--quiet", "--user", p.username + ":" + p.password,
                              p.command, "name", p.name.value]
  {
  }
}

=== FILE: vlag.dfy ===
/**
 The `pn_vlag` module: the parameters of `vlag-create`, `vlag-delete` and
 `vlag-modify`, the Ansible checks run on them, the command line built from
 them, and the report (with its `rc`) made from the tool's two output streams.
 The shape is the trunk module's with another field table; two of its fields
 are rendered as a single glued token.
 */
module Vlag {
  import opened Wrappers
  import opened PyText
  import opened CliArgs

  /** The module parameters after Ansible's parsing; `None` is a parameter that was not supplied. */
  datatype Params = Params(
    username: string,
    password: string,
    switch: Option<string>,
    command: string,
    name: Option<string>,
    port: Option<string>,
    peerPort: Option<string>,
    mode: Option<string>,
    peerSwitch: Option<string>,
    failoverAction: Option<string>,
    lacpMode: Option<string>,
    lacpTimeout: Option<string>,
    lacpFallback: Option<string>,
    lacpFallbackTimeout: Option<string>,
    quiet: bool)

  // ---------------------------------------------------------------------------
  // Validation: `required=True`, `choices` and `required_if`
  // ---------------------------------------------------------------------------

  const Commands: set<string> := {"vlag-create", "vlag-delete", "vlag-modify"}
  const Modes: set<string> := {"active-standby", "active-active"}
  const FailoverActions: set<string> := {"move", "ignore"}
  const LacpModes: set<string> := {"off", "passive", "active"}
  const LacpTimeouts: set<string> := {"slow", "fast"}
  const LacpFallbacks: set<string> := {"individual", "bundled"}

  /** The parameters whose value lies outside their `choices`. */
  function BadChoices(p: Params): set<string>
  {
    (if p.command in Commands then {} else {"pn_command"})
    + (if Chosen(p.mode, Modes) then {} else {"pn_mode"})
    + (if Chosen(p.failoverAction, FailoverActions) then {} else {"pn_failover_action"})
    + (if Chosen(p.lacpMode, LacpModes) then {} else {"pn_lacp_mode"})
    + (if Chosen(p.lacpTimeout, LacpTimeouts) then {} else {"pn_lacp_timeout"})
    + (if Chosen(p.lacpFallback, LacpFallbacks) then {} else {"pn_lacp_fallback"})
  }

  /** The `required_if` table: what each command needs besides the command itself. */
  function RequiredFor(command: string): seq<string>
  {
    if command == "vlag-create" then ["pn_name", "pn_port", "pn_peer_port"]
    else if command == "vlag-delete" then ["pn_name"]
    else if command == "vlag-modify" then ["pn_name"]
    else []
  }

  /** Whether a parameter named in the `required_if` table was supplied. */
  predicate Supplied(p: Params, param: string) {
    if param == "pn_name" then p.name.Some?
    else if param == "pn_port" then p.port.Some?
    else if param == "pn_peer_port" then p.peerPort.Some?
    else true
  }

  /** Ansible's checks in its own order: required parameters, then choices, then `required_if`. */
  function Validate(p: Params): Outcome<ValidationError>
  {
    if p.name.None? then Fail(MissingParams(["pn_name"]))
    else if BadChoices(p) != {} then Fail(InvalidChoices(BadChoices(p)))
    else
      var missing := Missing(RequiredFor(p.command), param => Supplied(p, param));
      if missing != [] then Fail(MissingParams(missing)) else Pass
  }

  /** Every enumerated parameter holds one of its choices. */
  predicate ChoicesHold(p: Params) {
    && p.command in Commands
    && (p.mode.Some? ==> p.mode.value in Modes)
    && (p.failoverAction.Some? ==> p.failoverAction.value in FailoverActions)
    && (p.lacpMode.Some? ==> p.lacpMode.value in LacpModes)
    && (p.lacpTimeout.Some? ==> p.lacpTimeout.value in LacpTimeouts)
    && (p.lacpFallback.Some? ==> p.lacpFallback.value in LacpFallbacks)
  }

  /** The choice check finds nothing exactly when every enumerated parameter holds one of its choices. */
  lemma BadChoicesEmpty(p: Params)
    ensures BadChoices(p) == {} <==> ChoicesHold(p)
  {
    if p.command !in Commands {
      assert "pn_command" in BadChoices(p);
    }
    if !Chosen(p.mode, Modes) {
      assert "pn_mode" in BadChoices(p);
    }
    if !Chosen(p.failoverAction, FailoverActions) {
      assert "pn_failover_action" in BadChoices(p);
    }
    if !Chosen(p.lacpMode, LacpModes) {
      assert "pn_lacp_mode" in BadChoices(p);
    }
    if !Chosen(p.lacpTimeout, LacpTimeouts) {
      assert "pn_lacp_timeout" in BadChoices(p);
    }
    if !Chosen(p.lacpFallback, LacpFallbacks) {
      assert "pn_lacp_fallback" in BadChoices(p);
    }
  }

  /** What the `required_if` check reports for a request that names the VLAG. */
  lemma MissingForCommand(p: Params)
    requires p.name.Some?
    ensures var missing := Missing(RequiredFor(p.command), param => Supplied(p, param));
            missing == if p.command == "vlag-create"
                       then (if p.port.None? then ["pn_port"] else [])
                            + (if p.peerPort.None? then ["pn_peer_port"] else [])
                       else []
  {
    var supplied := param => Supplied(p, param);
    if p.command == "vlag-create" {
      var table := ["pn_name", "pn_port", "pn_peer_port"];
      assert table[1..] == ["pn_port", "pn_peer_port"];
      assert table[1..][1..] == ["pn_peer_port"];
      assert table[1..][1..][1..] == [];
    } else if p.command == "vlag-delete" || p.command == "vlag-modify" {
      assert ["pn_name"][1..] == [];
    }
  }

  /** A request passes exactly when it names the VLAG, its choices hold, and a create also gives both ports. */
  lemma ValidateAccepts(p: Params)
    ensures Validate(p).Pass? <==>
              && p.name.Some? && ChoicesHold(p)
              && (p.command == "vlag-create" ==> p.port.Some? && p.peerPort.Some?)
  {
    BadChoicesEmpty(p);
    if p.name.Some? {
      MissingForCommand(p);
    }
  }

  /** A `vlag-create` missing a port is refused naming exactly the missing ones; delete and modify need only the name. */
  lemma RequiredFields(p: Params)
    requires p.name.Some? && ChoicesHold(p)
    ensures p.command == "vlag-create" && p.port.None? ==>
              Validate(p).Fail? && "pn_port" in Validate(p).error.missing
    ensures p.command == "vlag-create" && p.peerPort.None? ==>
              Validate(p).Fail? && "pn_peer_port" in Validate(p).error.missing
    ensures p.command != "vlag-create" ==> Validate(p) == Pass
  {
    BadChoicesEmpty(p);
    MissingForCommand(p);
  }

  // ---------------------------------------------------------------------------
  // The field table
  // ---------------------------------------------------------------------------

  /** The optional parameters that follow `name <name>`, in the order they are emitted. */
  datatype Field =
    | Port | PeerPort | Mode | PeerSwitch | Failover | LacpMode | LacpTimeout | LacpFallback
    | LacpFallbackTimeout

  const Fields: seq<Field> :=
    [Port, PeerPort, Mode, PeerSwitch, Failover, LacpMode, LacpTimeout, LacpFallback, LacpFallbackTimeout]

  /** The position of a field in the emission order. */
  function Rank(f: Field): int
  {
    match f
    case Port => 0
    case PeerPort => 1
    case Mode => 2
    case PeerSwitch => 3
    case Failover => 4
    case LacpMode => 5
    case LacpTimeout => 6
    case LacpFallback => 7
    case LacpFallbackTimeout => 8
  }

  /** `Fields` lists the fields at the positions their ranks give. */
  lemma FieldsRanked()
    ensures forall i :: 0 <= i < |Fields| ==> Rank(Fields[i]) == i
  {
  }

  /** Every field is listed, at the position its rank gives. */
  lemma InFields(f: Field)
    ensures 0 <= Rank(f) < |Fields| && Fields[Rank(f)] == f
    ensures f in Fields
  {
  }

  /** How each field is rendered: the peer switch and the failover action are glued into one token. */
  function FieldSetting(p: Params, f: Field): Setting
  {
    match f
    case Port => Pair("port", p.port)
    case PeerPort => Pair("peer-port", p.peerPort)
    case Mode => Pair("mode", p.mode)
    case PeerSwitch => Glued("peer-switch", p.peerSwitch, "")
    case Failover => Glued("failover-", p.failoverAction, "-L2")
    case LacpMode => Pair("lacp-mode", p.lacpMode)
    case LacpTimeout => Pair("lacp-timeout", p.lacpTimeout)
    case LacpFallback => Pair("lacp-fallback", p.lacpFallback)
    case LacpFallbackTimeout => Pair("lacp-fallback-timeout", p.lacpFallbackTimeout)
  }

  /** The tokens each field of a request renders to. */
  function Renderer(p: Params): Field -> Option<seq<string>>
  {
    f => Render(FieldSetting(p, f))
  }

  /** The optional clauses of a request, in emission order. */
  function Clauses(p: Params): seq<Clause<Field>>
  {
    Collect(Fields, Renderer(p))
  }

  /** The switch clause: `switch <value>` for any truthy value, `local` included. */
  function SwitchTokens(switch: Option<string>): seq<string>
  {
    if Truthy(switch) then ["switch", switch.value] else []
  }

  /** Everything before the optional clauses. */
  function HeadTokens(p: Params): seq<string>
    requires p.name.Some?
  {
    ["/usr/bin/cli"] + (if p.quiet then ["--quiet"] else []) + ["--user", p.username + ":" + p.password]
    + SwitchTokens(p.switch) + [p.command, "name", p.name.value]
  }

  // ---------------------------------------------------------------------------
  // The command string, exactly as the module concatenates it
  // ---------------------------------------------------------------------------

  function SwitchText(switch: Option<string>): string
  {
    if Truthy(switch) then " " + "switch" + " " + switch.value else ""
  }

  function CommandText(command: string, name: string): string
  {
    (" " + command) + (" " + "name" + " " + name)
  }

  /** The string up to and including the VLAG's name. */
  function HeadText(p: Params): string
    requires p.name.Some?
  {
    LoginText(p.quiet, p.username, p.password) + SwitchText(p.switch) + CommandText(p.command, p.name.value)
  }

  /** Each field's piece of the string, as a function of the field. */
  function Texts(p: Params): Field -> string
  {
    f => FieldText(p, f)
  }

  function FieldText(p: Params, f: Field): string
  {
    match f
    case Port => ArgText("port", p.port)
    case PeerPort => ArgText("peer-port", p.peerPort)
    case Mode => ArgText("mode", p.mode)
    case PeerSwitch => if Truthy(p.peerSwitch) then " " + ("peer-switch" + p.peerSwitch.value) else ""
    case Failover => if Truthy(p.failoverAction) then " " + ("failover-" + p.failoverAction.value + "-L2") + " " else ""
    case LacpMode => ArgText("lacp-mode", p.lacpMode)
    case LacpTimeout => ArgText("lacp-timeout", p.lacpTimeout)
    case LacpFallback => ArgText("lacp-fallback", p.lacpFallback)
    case LacpFallbackTimeout => ArgText("lacp-fallback-timeout", p.lacpFallbackTimeout)
  }

  // ---------------------------------------------------------------------------
  // Building the command
  // ---------------------------------------------------------------------------

  /** The reported string and the field-table argument vector; every parameter renders as text. */
  function Build(p: Params): (c: Command)
    requires p.name.Some?
    ensures |HeadTokens(p)| <= |c.argv| && c.argv[..|HeadTokens(p)|] == HeadTokens(p)
  {
    var argv := HeadTokens(p) + Flatten(Clauses(p));
    assert argv[..|HeadTokens(p)|] == HeadTokens(p);
    Command(HeadText(p) + Concat(Fields, Texts(p)), argv)
  }

  /** The table vector is the head followed by the clauses. */
  lemma BuildArgv(p: Params)
    requires p.name.Some?
    ensures Build(p).argv == HeadTokens(p) + Flatten(Clauses(p))
  {
  }

  /** The head begins `/usr/bin/cli [--quiet] --user <username>:<password>`, `--quiet` exactly when asked. */
  lemma HeadShape(p: Params)
    requires p.name.Some?
    ensures var head := HeadTokens(p);
            var k := if p.quiet then 2 else 1;
            && |head| >= k + 2
            && head[0] == "/usr/bin/cli"
            && (head[1] == "--quiet" <==> p.quiet)
            && head[k] == "--user" && head[k + 1] == p.username + ":" + p.password
  {
  }

  /** The table vector begins `/usr/bin/cli [--quiet] --user <username>:<password>`. */
  lemma PrefixShape(p: Params)
    requires p.name.Some?
    ensures var argv := Build(p).argv;
            var k := if p.quiet then 2 else 1;
            && |argv| >= k + 2
            && argv[0] == "/usr/bin/cli"
            && (argv[1] == "--quiet" <==> p.quiet)
            && argv[k] == "--user" && argv[k + 1] == p.username + ":" + p.password
  {
    HeadShape(p);
    AgreesWithPrefix(HeadTokens(p), Build(p).argv);
  }

  /** In the head, any truthy switch (`local` included) follows the credentials as `switch <value>`. */
  lemma SwitchHead(p: Params)
    requires p.name.Some?
    ensures var k := if p.quiet then 4 else 3;
            var head := HeadTokens(p);
            && |head| >= k + 2
            && (Truthy(p.switch) ==> head[k] == "switch" && head[k + 1] == p.switch.value)
            && (!Truthy(p.switch) ==> head[k] == p.command && head[k + 1] == "name")
  {
  }

  /** Any truthy switch, `local` included, is passed as `switch <value>`; a falsy one adds nothing. */
  lemma SwitchClause(p: Params)
    requires p.name.Some?
    ensures var k := if p.quiet then 4 else 3;
            var argv := Build(p).argv;
            && |argv| >= k + 2
            && (Truthy(p.switch) ==> argv[k] == "switch" && argv[k + 1] == p.switch.value)
            && (!Truthy(p.switch) ==> argv[k] == p.command && argv[k + 1] == "name")
  {
    var argv := Build(p).argv;
    var head := HeadTokens(p);
    SwitchHead(p);
    assert forall i :: 0 <= i < |head| ==> argv[i] == argv[..|head|][i];
  }

  /** The clauses follow the fixed field order, so no field appears twice. */
  lemma ClausesInOrder(p: Params)
    ensures InOrder(Clauses(p), Rank)
    ensures forall i, j :: 0 <= i < |Clauses(p)| && 0 <= j < |Clauses(p)| ==>
                             (Clauses(p)[i].field == Clauses(p)[j].field ==> i == j)
  {
    FieldsRanked();
    CollectOrdered(Fields, Renderer(p), Rank);
    InOrderDistinct(Clauses(p), Rank);
  }

  /** Each field has a clause exactly when its setting renders, holding those tokens. */
  lemma ClauseOfField(p: Params, f: Field)
    ensures Lookup(Clauses(p), f) == Render(FieldSetting(p, f))
  {
    InFields(f);
    CollectLookup(Fields, Renderer(p), f);
  }

  /** Every plain field renders `<cli-name> <value>` exactly when its value is non-empty. */
  lemma PairsRender(p: Params)
    ensures forall f | FieldSetting(p, f).Pair? ::
              var s := FieldSetting(p, f);
              Lookup(Clauses(p), f) == if Truthy(s.value) then Some([s.name, s.value.value]) else None
  {
    forall f | FieldSetting(p, f).Pair?
      ensures var s := FieldSetting(p, f);
              Lookup(Clauses(p), f) == if Truthy(s.value) then Some([s.name, s.value.value]) else None
    {
      ClauseOfField(p, f);
    }
  }

  /**
   A glued field (the peer switch, `peer-switch<value>`, and the failover
   action, `failover-<value>-L2`) renders one token exactly when its value is non-empty.
   */
  lemma GluedRender(p: Params)
    ensures forall f | FieldSetting(p, f).Glued? ::
              var s := FieldSetting(p, f);
              Lookup(Clauses(p), f) == if Truthy(s.value) then Some([s.prefix + s.value.value + s.suffix]) else None
  {
    forall f | FieldSetting(p, f).Glued?
      ensures var s := FieldSetting(p, f);
              Lookup(Clauses(p), f) == if Truthy(s.value) then Some([s.prefix + s.value.value + s.suffix]) else None
    {
      ClauseOfField(p, f);
    }
  }

  // ---------------------------------------------------------------------------
  // Splitting the reported string gives the table vector, for plain values
  // ---------------------------------------------------------------------------

  /** The string value a field carries. */
  function FieldValue(p: Params, f: Field): Option<string>
  {
    match FieldSetting(p, f)
    case Pair(_, v) => v
    case Glued(_, v, _) => v
    case _ => None
  }

  /** Every value that reaches the command line is a plain shell word (the name must also be non-empty). */
  predicate PlainParams(p: Params) {
    && Plain(p.username + ":" + p.password)
    && Plain(p.command)
    && p.name.Some? && Plain(p.name.value)
    && PlainValue(p.switch)
    && forall f :: PlainValue(FieldValue(p, f))
  }

  lemma PairNamesPlain()
    ensures
      && Plain("port") && Plain("peer-port") && Plain("mode") && Plain("lacp-mode")
      && Plain("lacp-timeout") && Plain("lacp-fallback") && Plain("lacp-fallback-timeout")
  {
  }

  lemma GluedPiecesPlain()
    ensures Plain("peer-switch") && Plain("failover-") && Plain("-L2")
  {
  }

  /** A glued token of plain pieces and a plain value is itself plain. */
  lemma GluedPlain(prefix: string, v: string, suffix: string)
    requires Plain(prefix) && Safe(v) && Safe(suffix)
    ensures Plain(prefix + v + suffix)
  {
    var w := prefix + v + suffix;
    forall i | 0 <= i < |w| ensures ShellSafe(w[i]) {
      if i < |prefix| {
        assert w[i] == prefix[i];
      } else if i < |prefix| + |v| {
        assert w[i] == v[i - |prefix|];
      } else {
        assert w[i] == suffix[i - |prefix| - |v|];
      }
    }
  }

  /** Each field's piece of the string splits into exactly the tokens the field table gives it. */
  lemma WordsOfField(p: Params, f: Field)
    requires PlainValue(FieldValue(p, f))
    ensures FieldText(p, f) == [] || FieldText(p, f)[0] in ShellSpace
    ensures Words(FieldText(p, f), ShellSpace) == Render(FieldSetting(p, f)).GetOr([])
  {
    match f
    case PeerSwitch =>
      if Truthy(p.peerSwitch) {
        assert "peer-switch" + p.peerSwitch.value == "peer-switch" + p.peerSwitch.value + "";
        GluedPiecesPlain();
        WordsOfGlued("peer-switch", p.peerSwitch.value, "");
      }
    case Failover =>
      if Truthy(p.failoverAction) {
        GluedPiecesPlain();
        WordsOfGlued("failover-", p.failoverAction.value, "-L2");
      }
    case _ =>
      var s := FieldSetting(p, f);
      assert FieldText(p, f) == ArgText(s.name, s.value);
      PairNamesPlain();
      WordsOfArgText(s.name, s.value);
  }

  /** A glued token, after a space and with or without a trailing space, splits into itself. */
  lemma WordsOfGlued(prefix: string, v: string, suffix: string)
    requires Plain(prefix) && Safe(v) && Safe(suffix)
    ensures Words(" " + (prefix + v + suffix), ShellSpace) == [prefix + v + suffix]
    ensures Words(" " + (prefix + v + suffix) + " ", ShellSpace) == [prefix + v + suffix]
  {
    GluedPlain(prefix, v, suffix);
    WordsOfPadded(prefix + v + suffix);
  }

  lemma WordsOfSwitch(switch: Option<string>)
    requires PlainValue(switch)
    ensures SwitchText(switch) == [] || SwitchText(switch)[0] in ShellSpace
    ensures Words(SwitchText(switch), ShellSpace) == SwitchTokens(switch)
  {
    if Truthy(switch) {
      FixedWordsPlain();
      WordsOfPair("switch", switch.value);
    }
  }

  lemma WordsOfCommand(command: string, name: string)
    requires Plain(command) && Plain(name)
    ensures Words(CommandText(command, name), ShellSpace) == [command, "name", name]
  {
    WordsAppend(" " + command, " " + "name" + " " + name, ShellSpace);
    WordsOfPadded(command);
    FixedWordsPlain();
    WordsOfPair("name", name);
  }

  /** The part of the string before the optional clauses splits into the head tokens. */
  lemma WordsOfHead(p: Params)
    requires p.name.Some? && Plain(p.username + ":" + p.password) && Plain(p.command) && Plain(p.name.value)
    requires PlainValue(p.switch)
    ensures Words(HeadText(p), ShellSpace) == HeadTokens(p)
  {
    var start := LoginText(p.quiet, p.username, p.password);
    var sw := SwitchText(p.switch);
    var cmd := CommandText(p.command, p.name.value);
    assert cmd[0] == ' ';
    WordsAppend(start + sw, cmd, ShellSpace);
    WordsOfSwitch(p.switch);
    WordsAppend(start, sw, ShellSpace);
    WordsOfLogin(p.quiet, p.username, p.password);
    WordsOfCommand(p.command, p.name.value);
  }

  /** The field pieces, concatenated, split into the clause tokens in table order. */
  lemma FieldsSplit(p: Params)
    requires PlainParams(p)
    ensures Concat(Fields, Texts(p)) == [] || Concat(Fields, Texts(p))[0] in ShellSpace
    ensures Words(Concat(Fields, Texts(p)), ShellSpace) == Flatten(Clauses(p))
  {
    var text := Texts(p);
    var render := Renderer(p);
    forall i | 0 <= i < |Fields|
      ensures text(Fields[i]) == [] || text(Fields[i])[0] in ShellSpace
      ensures Words(text(Fields[i]), ShellSpace) == render(Fields[i]).GetOr([])
    {
      assert PlainValue(FieldValue(p, Fields[i]));
      WordsOfField(p, Fields[i]);
    }
    WordsOfConcat(Fields, text, render, ShellSpace);
    ConcatLeads(Fields, text, ShellSpace);
  }

  /** Splitting the reported string on shell whitespace yields the argument vector, for plain values. */
  lemma TextSplitsToArgv(p: Params)
    requires PlainParams(p)
    ensures Words(Build(p).text, ShellSpace) == Build(p).argv
  {
    FieldsSplit(p);
    WordsAppend(HeadText(p), Concat(Fields, Texts(p)), ShellSpace);
    WordsOfHead(p);
  }

  // ---------------------------------------------------------------------------
  // Reporting and the whole run
  // ---------------------------------------------------------------------------

  /** The module's JSON result: `stdout` and `rc` 0 on success, `stderr` and `rc` 1 on failure. */
  datatype Report = Report(command: string, stdout: Option<string>, stderr: Option<string>, rc: int, changed: bool)

  /** Success is decided by the raw stderr being empty; the reported stream loses trailing CR/LF. */
  function MakeReport(command: string, out: ToolOutput): (r: Report)
    ensures r.command == command
    ensures r.changed <==> out.stderr == ""
    ensures r.rc == (if r.changed then 0 else 1)
    ensures r.changed ==> r.stdout == Some(TrimEol(out.stdout)) && r.stderr == None
    ensures !r.changed ==> r.stderr == Some(TrimEol(out.stderr)) && r.stdout == None
  {
    if out.stderr != "" then Report(command, None, Some(TrimEol(out.stderr)), 1, false)
    else Report(command, Some(TrimEol(out.stdout)), None, 0, true)
  }

  /** Validate, build, run the split of the string (the tool is a parameter), report. */
  function Run(p: Params, tool: seq<string> -> ToolOutput): Result<Report, ValidationError>
  {
    match Validate(p)
    case Fail(e) => Failure(e)
    case Pass =>
      var c := Build(p);
      Success(MakeReport(c.text, tool(Argv(c.text))))
  }

  /** A refused request never reaches the tool: its outcome does not depend on what the tool would do. */
  lemma RejectedBeforeRunning(p: Params, tool1: seq<string> -> ToolOutput, tool2: seq<string> -> ToolOutput)
    requires Validate(p).Fail?
    ensures Run(p, tool1) == Run(p, tool2) == Failure(Validate(p).error)
  {
  }

  /** A request that passes validation always runs, reports its string, and sets `rc` from stderr alone. */
  lemma RunOutcome(p: Params, tool: seq<string> -> ToolOutput)
    requires Validate(p).Pass?
    ensures p.name.Some? && Run(p, tool).Success?
    ensures Run(p, tool).value.command == Build(p).text
    ensures Run(p, tool).value.rc == 0 <==> tool(Argv(Build(p).text)).stderr == ""
  {
  }

  /** With plain values the tool runs exactly the field-table vector. */
  lemma PlainRunOutcome(p: Params, tool: seq<string> -> ToolOutput)
    requires PlainParams(p) && Validate(p).Pass?
    ensures Run(p, tool).Success?
    ensures Run(p, tool).value.rc == 0 <==> tool(Build(p).argv).stderr == ""
  {
    RunOutcome(p, tool);
    TextSplitsToArgv(p);
  }

  // ---------------------------------------------------------------------------
  // The documented example
  // ---------------------------------------------------------------------------

  /** The documented create: ports, peer switch and mode set, nothing else, quiet by default. */
  function DocumentedCreate(username: string, password: string, name: string, port: string,
                            peerPort: string, peerSwitch: string): Params
  {
    Params(username, password, None, "vlag-create", Some(name), Some(port), Some(peerPort),
           Some("active-active"), Some(peerSwitch), None, None, None, None, None, true)
  }

  /** The fields after the peer switch render nothing when none of them is set. */
  lemma DocumentedTail(p: Params)
    requires p.failoverAction.None? && p.lacpMode.None? && p.lacpTimeout.None?
    requires p.lacpFallback.None? && p.lacpFallbackTimeout.None?
    ensures Emitted(Fields[4..], Renderer(p)) == []
  {
    var render := Renderer(p);
    FieldsRanked();
    forall f | f in Fields[4..] ensures render(f) == None {
      var k :| 0 <= k < |Fields[4..]| && Fields[4..][k] == f;
      assert Rank(f) == k + 4;
    }
    CollectNone(Fields[4..], render);
    FlattenCollect(Fields[4..], render);
  }

  /** With only port, peer port, mode and peer switch set, those four render, in table order, the peer switch glued to its option. */
  lemma DocumentedClauses(p: Params)
    requires Truthy(p.port) && Truthy(p.peerPort) && Truthy(p.mode) && Truthy(p.peerSwitch)
    requires p.failoverAction.None? && p.lacpMode.None? && p.lacpTimeout.None?
    requires p.lacpFallback.None? && p.lacpFallbackTimeout.None?
    ensures Flatten(Clauses(p))
            == ["port", p.port.value] + (["peer-port", p.peerPort.value] + (["mode", p.mode.value]
               + ["peer-switch" + p.peerSwitch.value]))
  {
    var render := Renderer(p);
    var ps := "peer-switch" + p.peerSwitch.value;
    DocumentedTail(p);
    assert render(PeerSwitch) == Some([ps]) by {
      assert ps + "" == ps;
    }
    assert Fields[3..][0] == PeerSwitch && Fields[3..][1..] == Fields[4..];
    assert Emitted(Fields[3..], render) == [ps] + [];
    var e3 := Emitted(Fields[3..], render);
    assert Fields[2..][0] == Mode && Fields[2..][1..] == Fields[3..];
    var e2 := Emitted(Fields[2..], render);
    assert e3 == [ps];
    assert e2 == ["mode", p.mode.value] + e3;
    assert Fields[1..][0] == PeerPort && Fields[1..][1..] == Fields[2..];
    var e1 := Emitted(Fields[1..], render);
    assert e1 == ["peer-port", p.peerPort.value] + e2;
    assert Emitted(Fields, render) == ["port", p.port.value] + e1;
    FlattenCollect(Fields, render);
  }

  /**
   The documented create passes validation, and its table vector is
   `/usr/bin/cli --quiet --user <u>:<p> vlag-create name <name> port <port>
   peer-port <peer> mode active-active peer-switch<peer-switch>`; with the
   documented `spine02` the last token is `peer-switchspine02`.
   */
  lemma CreateExample(username: string, password: string, name: string, port: string,
                      peerPort: string, peerSwitch: string)
    requires port != "" && peerPort != "" && peerSwitch != ""
    ensures var p := DocumentedCreate(username, password, name, port, peerPort, peerSwitch);
            && Validate(p) == Pass
            && Build(p).argv ==
               ["/usr/bin/cli", "--quiet", "--user", username + ":" + password, "vlag-create", "name", name]
               + (["port", port] + (["peer-port", peerPort] + (["mode", "active-active"]
               + ["peer-switch" + peerSwitch])))
  {
    var p := DocumentedCreate(username, password, name, port, peerPort, peerSwitch);
    DocumentedValid(p);
    DocumentedClauses(p);
    BuildArgv(p);
    QuietHead(p);
  }

  /**
   With plain credentials, name, ports and peer switch, the documented
   create's string splits into that same vector: the tool runs exactly those
   tokens, `peer-switch<peer-switch>` among them as one.
   */
  lemma CreateExampleRuns(username: string, password: string, name: string, port: string,
                          peerPort: string, peerSwitch: string)
    requires Plain(username + ":" + password) && Plain(name)
    requires Plain(port) && Plain(peerPort) && Plain(peerSwitch)
    ensures Argv(Build(DocumentedCreate(username, password, name, port, peerPort, peerSwitch)).text) ==
            ["/usr/bin/cli", "--quiet", "--user", username + ":" + password, "vlag-create", "name", name]
            + (["port", port] + (["peer-port", peerPort] + (["mode", "active-active"]
            + ["peer-switch" + peerSwitch])))
  {
    var p := DocumentedCreate(username, password, name, port, peerPort, peerSwitch);
    CreateExample(username, password, name, port, peerPort, peerSwitch);
    DocumentedPlain(username, password, name, port, peerPort, peerSwitch);
    TextSplitsToArgv(p);
  }

  lemma DocumentedPlain(username: string, password: string, name: string, port: string,
                        peerPort: string, peerSwitch: string)
    requires Plain(username + ":" + password) && Plain(name)
    requires Plain(port) && Plain(peerPort) && Plain(peerSwitch)
    ensures PlainParams(DocumentedCreate(username, password, name, port, peerPort, peerSwitch))
  {
    var p := DocumentedCreate(username, password, name, port, peerPort, peerSwitch);
    assert Plain("vlag-create") && Safe("active-active");
    forall f: Field ensures PlainValue(FieldValue(p, f)) {
    }
  }

  lemma DocumentedValid(p: Params)
    requires p.name.Some? && p.command == "vlag-create" && p.port.Some? && p.peerPort.Some?
    requires p.mode == Some("active-active") && p.failoverAction.None? && p.lacpMode.None?
    requires p.lacpTimeout.None? && p.lacpFallback.None?
    ensures Validate(p) == Pass
  {
    ValidateAccepts(p);
  }

  /** Without a switch, a quiet request's head is the seven fixed-position tokens. */
  lemma QuietHead(p: Params)
    requires p.name.Some? && p.quiet && !Truthy(p.switch)
    ensures HeadTokens(p) == ["/usr/bin/cli", "--quiet", "--user", p.username + ":" + p.password,
                              p.command, "name", p.name.value]
  {
  }
}

=== FILE: wrappers.dfy ===
/** Optional values and results shared by the command builders. */
module Wrappers {

  /** A value that may be missing: a module parameter the caller did not supply is `None`. */
  datatype Option<+T> = None | Some(value: T) {

    /** Returns the value in Some, or the given default for None. */
    function GetOr(default: T): T {
      match this
      case Some(v) => v
      case None => default
    }
  }

  /** Either a value or the error that stopped the computation. */
  datatype Result<+R, +E> = Success(value: R) | Failure(error: E)

  /** Either success or the error that stopped a check. */
  datatype Outcome<+E> = Pass | Fail(error: E)
}
